=== FILE: README.md ===
# worker-comfyui, modelled in Dafny

This project models the core of a RunPod serverless worker that turns a
text prompt into an image with a local ComfyUI engine. The request handler
validates a job (`id`, `input`, `input.prompt`) and resolves a workflow by
name from a registry loaded at start-up (default `sd_1_5`). The workflow's
loader computes the image size from an aspect ratio such as `16_9` and
builds a seven-node Stable Diffusion graph. The handler submits that graph
and checks the engine's answer, follows the engine's websocket events to
report a percentage per event, and finally returns the saved image. The
image comes back as base64 text or as an S3 URL; any failure is answered
with the string `"ERROR"`.

The modules follow the repository's files:

- `Results`, `Text`, `PyJson`: the `Result`/`Option` wrappers, the string
  operations the code uses (`replace`, `split`, `join`, `int()`,
  `str()`), and JSON values together with the Python operators the handler
  applies to them (`in`, `[]`, `==`, truthiness, `float()`, set
  membership of node labels).
- `Dimensions`: `calculate_dimensions` in `src/workflows/templates/__init__.py`.
- `StableDiffusion`: `build_workflow_loader` and its `load` in
  `src/workflows/templates/stable_diffusion.py`.
- `Presets`: the three shipped workflow modules `sd_1_5`,
  `sdxl_lightning_4step` and `sdxl_lightning_6step_juggernaut_xi`.
- `Workflows`: the registry in `src/workflows/__init__.py`.
- `Submission`: the answer checks of `queue_prompt`.
- `Progress`: the receive loop of `handle_websocket` as a fold over the
  delivered messages.
- `Artifacts`: the output-image path, the S3 key and URL,
  `upload_image` and `get_base64_image`.
- `Handler`: `handler` and `process_job` composed over a `World` value. The
  `World` holds everything the worker observes from outside: the engine's
  submission answer, the messages delivered before the deadline, the
  output files, and whether an upload succeeds.

The arithmetic is exact integer arithmetic. The source's float
expressions are decided without rounding:

- `ratio > 1` is decided as `w*h > h*h`.
- `int(max_size / ratio)` is truncation toward zero of `max_size*h / w`.
- The progress percentage is the ceiling of
  `(100*(n-1)*max + 100*value) / (T*max)`, where `n` is the number of
  distinct nodes seen and `T` the number of graph nodes.

Python's `/` and `int()` are modelled with explicit truncating and
ceiling divisions, not Dafny's Euclidean ones.

Some consequences of the code that a reader might not expect:

- The percentages are not clamped to be non-decreasing. `Progress.ProgressCanRegress` shows a report of 15 followed by 0.
- An `executing` event for node A, an `executed` event for A and a
  `progress` event for node B at 50/100, in a five-node graph, report 0
  and then 30: the `progress` event counts B as the second node seen.
- A submission answered with HTTP 503 is not retried.
- The handler waits for the engine to become ready without any time
  limit; that wait is outside the model.
- A closed event stream is treated like success: the handler goes on to
  fetch the image.

## Model

| member | source | states |
|---|---|---|
| Dimensions.CalculateDimensions | src/workflows/templates/__init__.py:4-20 | the result is a pair exactly when the ratio parses into two integers and the height part is not zero; a zero height part is a `ZeroDivisionError`, and a successful result is the scaling of that parsed ratio |
| Dimensions.ParseRatio | src/workflows/templates/__init__.py:6 | a ratio that parses has exactly one separator once `_` is rewritten to `:`; every other failure is a `ValueError` |
| Dimensions.WideRatio | src/workflows/templates/__init__.py:12-14 | for W > H > 0 the width is `max_size` and the height is the floor of `max_size*H/W`, strictly below `max_size` |
| Dimensions.TallRatio | src/workflows/templates/__init__.py:16-18 | for 0 < W <= H the height is `max_size` and the width is the floor of `max_size*W/H`, at most `max_size` |
| Dimensions.ScaleAtMostMax | src/workflows/templates/__init__.py:11-20 | whatever the signs of the ratio, neither side exceeds `max_size` |
| Dimensions.SquareRatio | src/workflows/templates/__init__.py:16-18 | a ratio W:W gives a `max_size` square |
| Dimensions.SeparatorsAgree | src/workflows/templates/__init__.py:6 | "W_H" and "W:H" give the same dimensions |
| Dimensions.WrongArityRejected | src/workflows/templates/__init__.py:6 | a ratio with zero or several separators is a `ValueError` |
| Dimensions.RatioRoundTrip | src/workflows/templates/__init__.py:6 | printing two integers as "W_H" or "W:H" and parsing them gives the same integers back |
| Dimensions.DefaultRatioIsSquare | src/handler.py:512 | the default ratio "1_1" gives a `max_size` square |
| Dimensions.ThreePartRatioRejected | src/workflows/templates/__init__.py:6 | "16_9:1" has three parts and is rejected with a `ValueError` |
| StableDiffusion.BuiltLoaderGraphs | src/workflows/templates/stable_diffusion.py:6-99 | every graph the built loader's `load` produces, for any prompt, string ratio, job id, prefix and seed in the `randint` range, has the checkpoint in node 4, the negative prompt in node 7, the steps, cfg, sampler, scheduler and denoise in node 3, and `calculate_dimensions(max_size, ratio)` in node 5 |
| StableDiffusion.LoaderDefaults | src/workflows/templates/stable_diffusion.py:12-14 | a loader built without the optional settings uses `euler`, `normal` and denoise 1, and every graph it builds carries them in node 3 |
| StableDiffusion.NodeCount | src/workflows/templates/stable_diffusion.py:31-97 | the graph has seven node ids |
| StableDiffusion.AssembleWellLinked | src/workflows/templates/stable_diffusion.py:36-39 | every link of the graph points to a node of the graph and descends a fixed layering, so the graph has no cycle |
| StableDiffusion.NodeLinksBelow | src/workflows/templates/stable_diffusion.py:68 | each node's links point only to nodes on lower layers (checkpoint below encoders below sampler below decoder below saver) |
| StableDiffusion.Load | src/workflows/templates/stable_diffusion.py:18-99 | a graph is built exactly when the aspect ratio is a string whose dimensions compute; a non-string ratio is an `AttributeError`; a dimension error is passed on unchanged; the graph has the seven node ids and is closed and acyclic |
| StableDiffusion.LoadsDifferOnlyInJobId | src/workflows/templates/stable_diffusion.py:25 | two loads for different job ids both succeed or fail the same way, and their graphs differ only in node 9's `filename_prefix`, which is `filename_prefix + "_" + job_id` |
| StableDiffusion.AssembleWithSavePrefix | src/workflows/templates/stable_diffusion.py:89-95 | replacing node 9's save prefix in an assembled graph is the same as assembling with the other prefix |
| StableDiffusion.LoadPlacesPrompts | src/workflows/templates/stable_diffusion.py:49-79 | node 6 carries the user's prompt, node 7 the loader's negative prompt and node 4 the checkpoint name |
| StableDiffusion.LoadPlacesDimensions | src/workflows/templates/stable_diffusion.py:56-63 | node 5 carries the computed width and height and a batch size of 1 |
| StableDiffusion.LoadPlacesSampler | src/workflows/templates/stable_diffusion.py:33-46 | node 3 carries the seed, steps, cfg, sampler, scheduler and denoise given to the loader |
| StableDiffusion.LoadPlacesSavePrefix | src/workflows/templates/stable_diffusion.py:25 | node 9 saves under `filename_prefix + "_" + job_id` |
| StableDiffusion.LoadsDifferOnlyInSeed | src/workflows/templates/stable_diffusion.py:27 | two loads with different seeds both succeed or fail the same way, and their graphs differ only in the sampler's seed |
| StableDiffusion.AssembleWithSeed | src/workflows/templates/stable_diffusion.py:40 | replacing the seed in an assembled graph is the same as assembling with the other seed |
| Presets.Sd15Settings | src/workflows/sd_1_5.py:3-16 | SD 1.5 uses its checkpoint, 40 steps, cfg 9, `euler`/`normal`, denoise 1 and a 768 maximum |
| Presets.LightningSettings | src/workflows/sdxl_lightning_4step.py:3-17 | SDXL Lightning uses 4 steps, cfg 1.5, `dpmpp_sde`, a 1024 maximum and the shared negative prompt; the Juggernaut XI variant differs from it only in checkpoint and 6 steps |
| Presets.Sd15Dimensions | src/workflows/sd_1_5.py:7 | an SD 1.5 graph's latent image is at most 768 on each side, and exactly 768 x 768 for "1_1" |
| Presets.LightningDimensions | src/workflows/sdxl_lightning_6step_juggernaut_xi.py:8 | both Lightning presets are bounded by 1024 on each side, and exactly 1024 x 1024 for "1_1" |
| Workflows.Stem | src/workflows/__init__.py:20 | the stem of a `*.py` name is that name without its `.py` suffix |
| Workflows.Register | src/workflows/__init__.py:24 | registering keeps the registry well-formed and maps the name to the loader; an existing name keeps its place, a new name is appended at the end of the order |
| Workflows.LoadInto | src/workflows/__init__.py:18-26 | the loading loop always ends in a well-formed registry; on success its order is the earlier order followed by the stems of the files that imported, in listing order, each stem at its first appearance only |
| Workflows.AppendNewFresh | src/workflows/__init__.py:24-26 | when none of the imported stems is registered yet and they are pairwise distinct, the final order is the earlier order followed by exactly those stems |
| Workflows.LoadIntoOutcome | src/workflows/__init__.py:18-27 | loading succeeds exactly when no workflow file raises an error other than `ImportError`; then the registered names are the earlier ones plus the stems of the files that imported, each such stem maps to the module its own import produced, and every earlier name not re-imported keeps its module |
| Workflows.LoadWorkflows | src/workflows/__init__.py:14-27 | from an empty registry: success exactly when no workflow file raises a non-`ImportError`; then the registry is well-formed, holds exactly the imported stems, each with its own module, in listing order of first import |
| Workflows.SkippedFileInvisible | src/workflows/__init__.py:19-26 | `__init__.py`, non-`.py` names and files failing with `ImportError` can be removed from the listing without changing the result |
| Workflows.GetWorkflow | src/workflows/__init__.py:33-37 | the lookup succeeds exactly for registered names and returns that name's loader |
| Workflows.UnknownWorkflowMessage | src/workflows/__init__.py:35-36 | the error for an unknown name contains the name and every registered workflow name |
| Workflows.GetDefaultWorkflow | src/workflows/__init__.py:7 | the default lookup succeeds exactly when `sd_1_5` is registered, returning its loader |
| Workflows.LoadsShippedRegistry | src/workflows/__init__.py:14-30 | loading the shipped files gives the three shipped presets in listing order |
| Workflows.ShippedDefault | src/workflows/__init__.py:27 | with the shipped files the default workflow is SD 1.5; when the directory lists the files in the order of `ShippedFiles`, the available list reads "sd_1_5, sdxl_lightning_4step, sdxl_lightning_6step_juggernaut_xi" |
| Submission.CheckResponse | src/handler.py:233-240 | an answer is accepted exactly when it is a dict with `prompt_id` and without `error`, yielding that `prompt_id`; a falsy answer is empty, a dict without `prompt_id` is missing it, and an `error` key rejects even with a `prompt_id` |
| Submission.ErrorOverridesPromptId | src/handler.py:235-238 | adding `error` to an answer with a `prompt_id` turns acceptance into an engine error carrying that detail |
| Submission.NonDictResponses | src/handler.py:233-236 | a non-dict answer is never accepted: a nonzero number raises a `TypeError`, a string not containing "prompt_id" lacks the id |
| Progress.CeilDiv | src/handler.py:406 | the result is the ceiling of the quotient, for either sign of the divisor |
| Progress.NodeProgress | src/handler.py:396-408 | a node event adds at most one label to the seen set and never removes one |
| Progress.Step | src/handler.py:379-427 | a success reports 99; a step adds at most one seen node, and a step that reports nothing leaves the seen set unchanged; a closed stream stops without error; an undecodable message is a `ValueError` |
| Progress.Run | src/handler.py:379-424 | at most one report per message; a run that ends in success has 99 as its last report |
| Progress.Monitor | src/handler.py:368-369 | a graph with no nodes fails with `ZeroDivisionError` before any message is read |
| Progress.IgnoredIff | src/handler.py:384-391 | a message changes nothing and reports nothing exactly when it lacks `type` or `data`, is for another prompt, is of another kind, or names no node |
| Progress.NodeEventReports | src/handler.py:395-406 | an `executing`/`progress` event with a node reports the ceiling of 100*(n-1)/T, plus 100*value/(T*max) when `value` and `max` are present |
| Progress.NodeEventFailures | src/handler.py:396-404 | an unhashable node is a `TypeError`, a zero `max` a `ZeroDivisionError`, and an unparsable `value` that parse error |
| Progress.TerminalEvents | src/handler.py:410-421 | `execution_success` reports 99 and ends in success; `execution_error` ends with its `error`, or "Unknown error occurred" when it has none |
| Progress.PercentBounds | src/handler.py:399-406 | with 1 <= n <= T and 0 <= value <= max the percentage lies in 0..100 |
| Progress.RunWithinBounds | src/handler.py:379-408 | when every event names graph nodes and has 0 <= value <= max, every reported percentage lies in 0..100 |
| Progress.RunConcat | src/handler.py:379-424 | following two batches of messages is following the first and then, unless it ended, the second from the nodes seen so far |
| Progress.RunIsFold | src/handler.py:379-424 | the receive loop is a left fold of the per-message step over the delivered messages, threading the set of seen nodes |
| Progress.FoldConcat | src/handler.py:379-424 | for any step function, folding over two batches is folding over the first and, unless it ended, continuing over the second |
| Progress.StopsAtTerminal | src/handler.py:415 | nothing after a terminal message is read |
| Progress.IgnoredInvisible | src/handler.py:384-391 | an ignored message can be removed from anywhere in the stream without changing reports or outcome |
| Progress.ProgressCanRegress | src/handler.py:395-406 | in a seven-node graph a full sub-progress of node 3 reports 15 and the following `executing` of node 3 reports 0 |
| Progress.FiveNodeScenario | src/handler.py:395-406 | in a five-node graph `executing` A, `executed` A and `progress` B at 50/100 report 0 and then 30 |
| Progress.ExecutedSkipped | src/handler.py:395-421 | for any graph size, seen set and surrounding messages, removing an `executed` event with any data from the stream changes neither the reports nor the outcome |
| Artifacts.OutputImagePath | src/handler.py:268-272 | the path is the ComfyUI output directory, then the save prefix node 9 of the job's graph uses, then `_00001_.png` |
| Artifacts.OutputPathInjective | src/handler.py:268-272 | distinct job ids have distinct output image paths |
| Artifacts.S3UrlInjective | src/handler.py:288-299 | distinct job ids have distinct S3 URLs |
| Artifacts.UploadImage | src/handler.py:276-312 | without a bucket the result is ""; with one, a missing image is `FileNotFoundError`, a successful upload yields exactly `https://<bucket>.s3.<region>.amazonaws.com/<job_id>.png`, and the call succeeds exactly when the image exists and the upload succeeds |
| Artifacts.Base64Image | src/handler.py:316-331 | the image text is returned exactly when the output file exists |
| Handler.LookupWorkflow | src/handler.py:509-510 | a requested workflow resolves exactly when it is a registered name, to that name's loader |
| Handler.RequestChecksInOrder | src/handler.py:495-505 | a missing `id`, then a missing `input`, then a missing `input.prompt` are each reported before anything else is looked at |
| Handler.RequestDefaults | src/handler.py:504-514 | an accepted request has an `id`, `input` and `prompt`; the default workflow is registered; the workflow is the requested one or the default; the aspect ratio is the given one or "1_1" |
| Handler.UnknownWorkflowRefused | src/handler.py:508-510 | a request naming an unregistered workflow, or any request when the default is not registered, is refused |
| Handler.ParseRequest | src/handler.py:494-514 | an accepted request comes from an event with `id` and `input.prompt`, carries that prompt and the displayed id, and its workflow is one of the registered loaders |
| Handler.ProcessJob | src/handler.py:433-480 | a graph that cannot be built ends the job with that exception before any message is read; at most one report per delivered message; a successful job returns what fetching the image returns |
| Handler.Fetch | src/handler.py:464-474 | without S3 the result is the image's base64 text or a missing-file error; any result is that text, "" or an https URL |
| Handler.Handle | src/handler.py:484-521 | health-check mode answers "OK" with no reports; an invalid request answers "ERROR" with no reports; an accepted request whose graph cannot be built (a malformed, zero-height or non-string aspect ratio) answers "ERROR" with no reports; there is at most one report per message |
| Handler.GraphHasSevenNodes | src/handler.py:368 | every submitted graph has seven nodes, so percentages are computed with T = 7 |
| Handler.RejectedSubmissionReportsNothing | src/handler.py:454-457 | a rejected submission answers "ERROR" without reporting progress |
| Handler.MonitoringDecides | src/handler.py:459-477 | the reports are the monitor's; a stream still open at the deadline, an execution error or a crash answers "ERROR"; success or a closed stream answers with the fetched image |
| Handler.ClosedStreamAnsweredAsSuccess | src/handler.py:423-424 | a stream that closes gets the same answer as one that reports success |
| Handler.ReturnsSavedImage | src/handler.py:464-474 | after success without S3 the answer is the file at `<comfy>/output/<saved prefix>_00001_.png`, where the saved prefix is the one node 9 of the graph saves under |
| Handler.ReportsWithinBounds | src/handler.py:393-408 | when the engine's events are well formed, every percentage the handler reports lies in 0..100 |
| Handler.ReplyShape | src/handler.py:488-521 | the answer is "OK", "ERROR", an image's base64 text, "" or an https URL |

## Left out

- Process supervision is left out: starting, checking and restarting the ComfyUI process, the model-cache links, and the wait for readiness (`src/handler.py:64-161`). The model assumes ComfyUI is up when a job starts.
- The HTTP session, its retry policy and `raise_for_status` (`src/handler.py:185-208`, `226-228`) are left out. The engine's decoded answer is the `World.submission` parameter.
- The websocket connection, the `active_websockets` bookkeeping and the `asyncio.wait_for` deadline race are left out. The messages that arrive before the deadline are the `World.messages` parameter. A stream that is still open when they run out is the timeout.
- The S3 client and `os.remove` are left out. Whether an upload succeeds is the `World.uploadSucceeds` flag, and the upload settings (content type, cache control) are not modelled.
- Base64 encoding (section 4 of RFC 4648) is left out. The file map holds each image's encoded text.
- Environment-variable configuration (`src/handler.py:23-53`) is the `Config` value. The client id, the URLs and the timeout value are not modelled.
- `runpod.serverless.progress_update` is left out. The reported percentages are returned as a sequence.
- Logging (`print`, `traceback`) is left out.
- `glob` and `importlib` are parameters of `Workflows.LoadWorkflows`: the listing order and each stem's import outcome. Real module loading is out of scope.
- `random.randint` is left out: the seed is a parameter constrained to the range `10**14 .. 10**15 - 1`.
- Progress.NodeProgress: decoded JSON numbers are integers only, so a float `value` or `max` (or any float in an engine message) is outside the model. A decimal string is a `ValueError` in the model, whereas Python's `float()` accepts both.
- Progress.CeilDiv: the percentage is the exact ceiling. Python evaluates `100*(n-1)/T + (100/T)*value/max` in floating point, which can land just above an integer and then round up by one. For T = 17, n = 17 and value = max = 11 the float sum is 100.00000000000001, so Python reports 101, beyond the 0..100 bound that `Progress.PercentBounds` and `Progress.RunWithinBounds` prove for the exact value. The handler's seven-node graph is not known to hit such a case, but the model does not prove that.
- Dimensions.CalculateDimensions: `int()` does not accept non-ASCII digits, non-ASCII whitespace or underscores between digits; ASCII whitespace, including the separators `\x1c`-`\x1f`, is stripped as in Python.
- Dimensions.CalculateDimensions: the ratio is compared and divided exactly, not as a float. The near-square ratio `100000000000000001_100000000000000000` gives (768, 767) in the model, whereas Python rounds the ratio to 1.0 and gives (768, 768).
- Dimensions.CalculateDimensions: an operand beyond the float range (more than about 308 digits) makes Python raise `OverflowError`; the model returns a pair.
- Handler.ParseRequest: a list or dict as the job `id` is an error. Python would format it with `str()`.

=== FILE: artifacts.dfy ===
/** Where a finished job's image is found and how it is handed back:
    the output path ComfyUI writes, the S3 object key and public URL, and
    the inline base64 text. The filesystem is a map from path to the
    file's base64 encoding; S3 is one success flag. */
module Artifacts {
  import opened Results
  import StableDiffusion

  datatype ArtifactError = FileNotFound(path: string) | UploadFailed

  const OutputSuffix: string := "_00001_.png"

  /** `get_output_image_path`: the first file the SaveImage node writes
      for the job's save prefix. */
  function OutputImagePath(comfyPath: string, filenamePrefix: string, jobId: string): (path: string)
    ensures path == comfyPath + "/output/" + StableDiffusion.SavePrefix(filenamePrefix, jobId) + OutputSuffix
  {
    comfyPath + "/output/" + filenamePrefix + "_" + jobId + "_00001_.png"
  }

  /** Different jobs of one worker never share an output path. */
  lemma OutputPathInjective(comfyPath: string, filenamePrefix: string, job1: string, job2: string)
    requires OutputImagePath(comfyPath, filenamePrefix, job1) == OutputImagePath(comfyPath, filenamePrefix, job2)
    ensures job1 == job2
  {
    var head := comfyPath + "/output/" + filenamePrefix + "_";
    var p1 := OutputImagePath(comfyPath, filenamePrefix, job1);
    var p2 := OutputImagePath(comfyPath, filenamePrefix, job2);
    assert p1 == head + job1 + OutputSuffix;
    assert p2 == head + job2 + OutputSuffix;
    assert |job1| == |job2|;
    assert job1 == p1[|head|..|head| + |job1|];
    assert job2 == p2[|head|..|head| + |job2|];
  }

  /** The S3 object key of a job's image. */
  function S3Key(jobId: string): (key: string)
    ensures |key| == |jobId| + 4 && key[..|jobId|] == jobId && key[|jobId|..] == ".png"
  {
    jobId + ".png"
  }

  /** The public URL of an object in a bucket of a region. */
  function S3Url(bucket: string, region: string, key: string): (url: string)
    ensures "https://" <= url && |url| >= 8 + |key| && url[|url| - |key|..] == key
  {
    "https://" + bucket + ".s3." + region + ".amazonaws.com/" + key
  }

  /** Different jobs get different objects and different URLs. */
  lemma S3UrlInjective(bucket: string, region: string, job1: string, job2: string)
    requires S3Url(bucket, region, S3Key(job1)) == S3Url(bucket, region, S3Key(job2))
    ensures job1 == job2
  {
    var head := "https://" + bucket + ".s3." + region + ".amazonaws.com/";
    var u1 := S3Url(bucket, region, S3Key(job1));
    var u2 := S3Url(bucket, region, S3Key(job2));
    assert u1 == head + job1 + ".png";
    assert u2 == head + job2 + ".png";
    assert |job1| == |job2|;
    assert job1 == u1[|head|..|head| + |job1|];
    assert job2 == u2[|head|..|head| + |job2|];
  }

  /** `upload_image`: with no bucket configured nothing is uploaded and
      the result is empty; otherwise the image must exist and the upload
      succeed, and the result is the object's URL. */
  function UploadImage(files: map<string, string>, uploadSucceeds: bool, bucket: string, region: string,
                       comfyPath: string, filenamePrefix: string, jobId: string): (r: Result<string, ArtifactError>)
    ensures bucket == "" <==> r == Ok("")
    ensures bucket != "" && OutputImagePath(comfyPath, filenamePrefix, jobId) !in files ==>
              r == Err(FileNotFound(OutputImagePath(comfyPath, filenamePrefix, jobId)))
    ensures r.Ok? && bucket != "" ==>
              "https://" <= r.value && |r.value| >= |jobId| + 4 && r.value[|r.value| - |jobId| - 4..] == jobId + ".png"
    ensures r.Ok? && bucket != "" ==>
              r.value == S3Url(bucket, region, S3Key(jobId))
              && r.value == "https://" + bucket + ".s3." + region + ".amazonaws.com/" + jobId + ".png"
    ensures r.Ok? <==> bucket == "" || (OutputImagePath(comfyPath, filenamePrefix, jobId) in files && uploadSucceeds)
  {
    if bucket != "" then
      var path := OutputImagePath(comfyPath, filenamePrefix, jobId);
      if path !in files then Err(FileNotFound(path))
      else if !uploadSucceeds then Err(UploadFailed)
      else Ok(S3Url(bucket, region, S3Key(jobId)))
    else Ok("")
  }

  /** `get_base64_image`: the encoded content of the job's output file. */
  function Base64Image(files: map<string, string>, comfyPath: string, filenamePrefix: string, jobId: string): (r: Result<string, ArtifactError>)
    ensures r.Ok? <==> OutputImagePath(comfyPath, filenamePrefix, jobId) in files
    ensures r.Ok? ==> r.value == files[OutputImagePath(comfyPath, filenamePrefix, jobId)]
  {
    var path := OutputImagePath(comfyPath, filenamePrefix, jobId);
    if path in files then Ok(files[path]) else Err(FileNotFound(path))
  }
}

=== FILE: dimensions.dfy ===
/** Image dimensions from a maximum side length and an aspect-ratio string
    such as "16_9" or "16:9" (`calculate_dimensions`). The source divides
    floats; here the quotients are exact and `int()` truncates toward zero. */
module Dimensions {
  import opened Results
  import opened Text
  import opened PyJson

  function Abs(x: int): nat {
    if x < 0 then -x else x
  }

  /** `int(a / b)`: the exact quotient truncated toward zero. */
  function TruncDiv(a: int, b: int): (q: int)
    requires b != 0
    ensures Abs(q) * Abs(b) <= Abs(a) < (Abs(q) + 1) * Abs(b)
    ensures q == 0 || ((q > 0) <==> ((a > 0) == (b > 0)))
  {
    var m := Abs(a) / Abs(b);
    if (a >= 0) == (b > 0) then m else -m
  }

  /** The two integers of an aspect ratio: underscores become colons, and
      the result must split into exactly two `int()`-parsable parts. */
  function ParseRatio(aspect: string): (r: Result<(int, int), PyError>)
    ensures r.Ok? ==> Count(Replace(aspect, '_', ':'), ':') == 1
    ensures r.Err? ==> r.error == ValueError
  {
    var parts := Split(Replace(aspect, '_', ':'), ':');
    if |parts| == 2 then
      match (ParseInt(parts[0]), ParseInt(parts[1]))
      case (Some(w), Some(h)) => Ok((w, h))
      case _ => Err(ValueError)
    else Err(ValueError)
  }

  /** `w / h > 1`, decided exactly. */
  predicate Wider(w: int, h: int)
    requires h != 0
  {
    w * h > h * h
  }

  /** The branch of `calculate_dimensions` after parsing: the longer side of
      the ratio gets `maxSize`, the other side is scaled down. */
  function Scale(maxSize: int, w: int, h: int): (int, int)
    requires h != 0
  {
    if Wider(w, h) then (maxSize, TruncDiv(maxSize * h, w))
    else (TruncDiv(maxSize * w, h), maxSize)
  }

  /** `calculate_dimensions(max_size, aspect_ratio)`. */
  function CalculateDimensions(maxSize: int, aspect: string): (r: Result<(int, int), PyError>)
    ensures r.Ok? <==> ParseRatio(aspect).Ok? && ParseRatio(aspect).value.1 != 0
    ensures ParseRatio(aspect).Ok? && ParseRatio(aspect).value.1 == 0 ==> r == Err(ZeroDivisionError)
    ensures r.Ok? ==> r.value == Scale(maxSize, ParseRatio(aspect).value.0, ParseRatio(aspect).value.1)
  {
    var ratio :- ParseRatio(aspect);
    if ratio.1 == 0 then Err(ZeroDivisionError)
    else Ok(Scale(maxSize, ratio.0, ratio.1))
  }

  /** A strict inequality between multiples of a positive factor holds
      between the multiplied numbers. */
  lemma LessByFactor(a: int, b: int, c: int)
    requires c > 0 && a * c < b * c
    ensures a < b
  {
  }

  lemma AtMostByFactor(a: int, b: int, c: int)
    requires c > 0 && a * c <= b * c
    ensures a <= b
  {
  }

  lemma MulLess(a: int, b: int, c: int)
    requires a < b && c > 0
    ensures a * c < b * c
  {
  }

  lemma MulAtMost(a: int, b: int, c: int)
    requires a <= b && c >= 0
    ensures a * c <= b * c
  {
  }

  /** On non-negative operands truncation is floor division. */
  lemma TruncDivFloor(a: int, b: int)
    requires a >= 0 && b > 0
    ensures TruncDiv(a, b) == a / b
    ensures (a / b) * b <= a < (a / b + 1) * b
  {
  }

  /** A wide ratio (W > H > 0): the width is `maxSize` and the height is
      the floor of `maxSize * H / W`, strictly below `maxSize`. */
  lemma WideRatio(maxSize: int, w: int, h: int)
    requires maxSize > 0 && w > h > 0
    ensures Wider(w, h)
    ensures Scale(maxSize, w, h).0 == maxSize
    ensures var height := Scale(maxSize, w, h).1;
      && 0 <= height < maxSize
      && height * w <= maxSize * h < (height + 1) * w
  {
    MulLess(h, w, h);
    var a := maxSize * h;
    MulLess(0, maxSize, h);
    TruncDivFloor(a, w);
    var q := a / w;
    MulLess(h, w, maxSize);
    assert h * maxSize == a;
    LessByFactor(q, maxSize, w);
  }

  /** A tall or square ratio (0 < W <= H): the height is `maxSize` and the
      width is the floor of `maxSize * W / H`, at most `maxSize`. */
  lemma TallRatio(maxSize: int, w: int, h: int)
    requires maxSize >= 0 && 0 < w <= h
    ensures !Wider(w, h)
    ensures Scale(maxSize, w, h).1 == maxSize
    ensures var width := Scale(maxSize, w, h).0;
      && 0 <= width <= maxSize
      && width * h <= maxSize * w < (width + 1) * h
  {
    MulAtMost(w, h, h);
    assert !Wider(w, h);
    var a := maxSize * w;
    MulAtMost(0, maxSize, w);
    assert 0 <= a;
    TruncDivFloor(a, h);
    var q := TruncDiv(a, h);
    assert Scale(maxSize, w, h) == (q, maxSize);
    assert q * h <= a < (q + 1) * h;
    MulAtMost(w, h, maxSize);
    assert w * maxSize == a;
    assert a <= h * maxSize;
    AtMostByFactor(q, maxSize, h);
  }


  lemma TruncDivAtMost(a: int, b: int, m: int)
    requires b != 0 && m >= 0 && Abs(a) <= m * Abs(b)
    ensures Abs(TruncDiv(a, b)) <= m
  {
    AtMostByFactor(Abs(TruncDiv(a, b)), m, Abs(b));
  }

  lemma AbsMul(x: int, y: int)
    ensures Abs(x * y) == Abs(x) * Abs(y)
  {
    if x < 0 && y < 0 {
      assert x * y == (-x) * (-y);
    } else if x < 0 {
      assert -(x * y) == (-x) * y;
    } else if y < 0 {
      assert -(x * y) == x * (-y);
    }
  }

  /** For a wide ratio the scaled height is at most `maxSize`. */
  lemma WideAtMostMax(maxSize: int, w: int, h: int)
    requires maxSize >= 0 && h != 0 && Wider(w, h)
    ensures TruncDiv(maxSize * h, w) <= maxSize
  {
    if h > 0 {
      LessByFactor(h, w, h);
    } else {
      assert (-w) * (-h) > (-h) * (-h);
      LessByFactor(-h, -w, -h);
    }
    MulAtMost(Abs(h), Abs(w), maxSize);
    AbsMul(maxSize, h);
    TruncDivAtMost(maxSize * h, w, maxSize);
  }

  /** A quotient of operands of opposite signs (or a zero dividend) is
      not positive. */
  lemma TruncDivNotPositive(a: int, b: int)
    requires b != 0 && (if b > 0 then a <= 0 else a >= 0)
    ensures TruncDiv(a, b) <= 0
  {
  }

  /** For a tall, square or negative ratio the scaled width is at most
      `maxSize`. */
  lemma NarrowAtMostMax(maxSize: int, w: int, h: int)
    requires maxSize >= 0 && h != 0 && !Wider(w, h)
    ensures TruncDiv(maxSize * w, h) <= maxSize
  {
    var sameSign: bool;
    if h > 0 {
      AtMostByFactor(w, h, h);
      sameSign := w > 0;
      if !sameSign {
        MulAtMost(w, 0, maxSize);
        TruncDivNotPositive(maxSize * w, h);
      }
    } else {
      assert (-w) * (-h) <= (-h) * (-h);
      AtMostByFactor(-w, -h, -h);
      sameSign := w < 0;
      if !sameSign {
        MulAtMost(0, w, maxSize);
        TruncDivNotPositive(maxSize * w, h);
      }
    }
    if sameSign {
      assert Abs(w) <= Abs(h);
      MulAtMost(Abs(w), Abs(h), maxSize);
      AbsMul(maxSize, w);
      TruncDivAtMost(maxSize * w, h, maxSize);
    }
  }

  /** Neither dimension ever exceeds `maxSize`, whatever the signs of the
      ratio's parts. */
  lemma ScaleAtMostMax(maxSize: int, w: int, h: int)
    requires maxSize >= 0 && h != 0
    ensures Scale(maxSize, w, h).0 <= maxSize && Scale(maxSize, w, h).1 <= maxSize
  {
    if Wider(w, h) {
      WideAtMostMax(maxSize, w, h);
    } else {
      NarrowAtMostMax(maxSize, w, h);
    }
  }

  /** Any ratio W:W with W != 0 (for instance "1_1") gives a square of side
      `maxSize`. */
  lemma SquareRatio(maxSize: int, w: int)
    requires w != 0
    ensures Scale(maxSize, w, w) == (maxSize, maxSize)
  {
    assert !Wider(w, w);
    var a := maxSize * w;
    var q := TruncDiv(a, w);
    assert Abs(a) == Abs(maxSize) * Abs(w);
    AtMostByFactor(Abs(q), Abs(maxSize), Abs(w));
    LessByFactor(Abs(maxSize), Abs(q) + 1, Abs(w));
    assert Abs(q) == Abs(maxSize);
  }

  lemma {:induction false} ReplaceIdempotent(s: string, from: char, to: char)
    ensures Replace(Replace(s, from, to), from, to) == Replace(s, from, to)
  {
    var once := Replace(s, from, to);
    var twice := Replace(once, from, to);
    assert forall i :: 0 <= i < |s| ==> twice[i] == once[i];
  }

  /** "W_H" and "W:H" are the same ratio: the underscore form is rewritten
      to the colon form before parsing. */
  lemma SeparatorsAgree(maxSize: int, aspect: string)
    ensures CalculateDimensions(maxSize, aspect) == CalculateDimensions(maxSize, Replace(aspect, '_', ':'))
  {
    ReplaceIdempotent(aspect, '_', ':');
  }

  /** Zero or two and more separators are a `ValueError`. */
  lemma WrongArityRejected(maxSize: int, aspect: string)
    requires Count(Replace(aspect, '_', ':'), ':') != 1
    ensures CalculateDimensions(maxSize, aspect) == Err(ValueError)
  {
  }

  lemma ReplaceConcat(a: string, b: string, from: char, to: char)
    ensures Replace(a + b, from, to) == Replace(a, from, to) + Replace(b, from, to)
  {
    var l := Replace(a + b, from, to);
    var r := Replace(a, from, to) + Replace(b, from, to);
    assert forall i :: 0 <= i < |l| ==> l[i] == r[i];
  }

  lemma ReplaceAbsent(s: string, from: char, to: char)
    requires from !in s
    ensures Replace(s, from, to) == s
  {
    var r := Replace(s, from, to);
    assert forall i :: 0 <= i < |s| ==> r[i] == s[i];
  }

  lemma IntToStringAlphabet(n: int)
    ensures '_' !in IntToString(n) && ':' !in IntToString(n)
  {
    var s := IntToString(n);
    var digits := NatToString(if n < 0 then -n else n);
    assert forall i :: 0 <= i < |digits| ==> IsDigit(digits[i]);
    if n < 0 {
      assert forall i :: 1 <= i < |s| ==> s[i] == digits[i - 1];
    }
  }

  /** Printing a ratio as "W_H" or "W:H" and parsing it gives W and H back. */
  lemma RatioRoundTrip(w: int, h: int, sep: char)
    requires sep == '_' || sep == ':'
    ensures ParseRatio(IntToString(w) + [sep] + IntToString(h)) == Ok((w, h))
  {
    var a := IntToString(w);
    var b := IntToString(h);
    IntToStringAlphabet(w);
    IntToStringAlphabet(h);
    ReplaceConcat(a + [sep], b, '_', ':');
    ReplaceConcat(a, [sep], '_', ':');
    ReplaceAbsent(a, '_', ':');
    ReplaceAbsent(b, '_', ':');
    assert Replace([sep], '_', ':') == [':'];
    assert Replace(a + [sep] + b, '_', ':') == a + [':'] + b;
    SplitAtSeparator(a, b, ':');
    ParseIntToString(w);
    ParseIntToString(h);
  }

  /** The default ratio "1_1" gives a `maxSize` square. */
  lemma DefaultRatioIsSquare(maxSize: int)
    ensures CalculateDimensions(maxSize, "1_1") == Ok((maxSize, maxSize))
  {
    assert IntToString(1) == "1";
    RatioRoundTrip(1, 1, '_');
    assert "1" + ['_'] + "1" == "1_1";
    SquareRatio(maxSize, 1);
  }

  lemma ColonForm()
    ensures Replace("16_9:1", '_', ':') == "16:9:1"
  {
    var r := Replace("16_9:1", '_', ':');
    assert forall i :: 0 <= i < 6 ==> r[i] == "16:9:1"[i];
  }

  lemma ColonCount()
    ensures Count("16:9:1", ':') == 2
  {
  }

  /** "16_9:1" has three parts and is rejected. */
  lemma ThreePartRatioRejected(maxSize: int)
    ensures CalculateDimensions(maxSize, "16_9:1") == Err(ValueError)
  {
    ColonForm();
    ColonCount();
    WrongArityRejected(maxSize, "16_9:1");
  }
}

=== FILE: handler.dfy ===
/** The serverless entry point: validate a job request, fill in its
    defaults, build and submit the workflow graph, follow the engine's
    events and return the image, or the single string "ERROR" for any
    failure. Everything the worker observes from outside — the engine's
    answers, its event stream, the output files, S3 — is a parameter. */
module Handler {
  import opened Results
  import opened PyJson
  import StableDiffusion
  import Workflows
  import Submission
  import Progress
  import Artifacts

  /** The environment-derived settings the handler reads. */
  datatype Config = Config(
    healthCheck: bool,
    comfyPath: string,
    filenamePrefix: string,
    s3Upload: bool,
    bucket: string,
    region: string)

  /** What one job observes from outside the worker: the registry loaded
      at start-up, the seed `randint` draws, the engine's answer to the
      submission, the messages the event stream delivers before the
      deadline, the output files (path to base64 text) and whether an S3
      upload succeeds. */
  datatype World = World(
    registry: Workflows.Registry,
    seed: int,
    submission: Json,
    messages: seq<Progress.Message>,
    files: map<string, string>,
    uploadSucceeds: bool)

  /** A validated request with its defaults filled in. */
  datatype Request = Request(jobId: string, prompt: Json, workflow: StableDiffusion.Loader, aspectRatio: Json)

  /** Why a job fails; each is logged and answered with "ERROR". */
  datatype JobError =
    | MissingId
    | MissingInput
    | MissingPrompt
    | UnknownWorkflow(message: string)
    | Raised(cause: PyError)
    | Rejected(rejection: Submission.Rejection)
    | Failed(end: Progress.Terminal)
    | TimedOut
    | NoArtifact(error: Artifacts.ArtifactError)

  /** The handler's answer and the percentages reported on the way. */
  datatype Reply = Reply(body: string, progress: seq<int>)

  datatype JobRun = JobRun(result: Result<string, JobError>, progress: seq<int>)

  /** `key in container`, a Python error becoming a job error. */
  function Has(container: Json, key: string): (r: Result<bool, JobError>)
    ensures r.Ok? <==> Contains(container, key).Ok?
    ensures r.Ok? ==> r.value == Contains(container, key).value
  {
    match Contains(container, key)
    case Ok(b) => Ok(b)
    case Err(e) => Err(Raised(e))
  }

  /** `container[key]`, a Python error becoming a job error. */
  function At(container: Json, key: string): (r: Result<Json, JobError>)
    ensures r.Ok? <==> Get(container, key).Ok?
    ensures r.Ok? ==> r.value == Get(container, key).value
  {
    match Get(container, key)
    case Ok(v) => Ok(v)
    case Err(e) => Err(Raised(e))
  }

  /** `get_workflow(name)` for a JSON value: a list or dict is unhashable,
      any other value that is not a registered name is unknown. */
  function LookupWorkflow(registry: Workflows.Registry, name: Json): (r: Result<StableDiffusion.Loader, JobError>)
    ensures r.Ok? <==> name.JStr? && name.s in registry.modules
    ensures r.Ok? ==> r.value == registry.modules[name.s]
  {
    match name
    case JArr(_) => Err(Raised(TypeError))
    case JObj(_) => Err(Raised(TypeError))
    case JStr(s) =>
      (match Workflows.GetWorkflow(registry, s)
       case Ok(loader) => Ok(loader)
       case Err(message) => Err(UnknownWorkflow(message)))
    case _ =>
      var shown := Display(name).value;
      Err(UnknownWorkflow("ERROR: Workflow '" + shown + "' not found. Available workflows: " + Workflows.Available(registry)))
  }

  /** The checks and defaults of `handler` before `process_job`: `id`,
      `input` and `input.prompt` in that order, then the default workflow
      (looked up even when another is requested), the requested one, and
      the aspect ratio, "1_1" unless given. */
  function ParseRequest(registry: Workflows.Registry, event: Json): (r: Result<Request, JobError>)
    ensures r.Ok? ==>
      && event.JObj? && "id" in event.fields && "input" in event.fields
      && event.fields["input"].JObj? && "prompt" in event.fields["input"].fields
      && r.value.prompt == event.fields["input"].fields["prompt"]
      && Display(event.fields["id"]) == Some(r.value.jobId)
    ensures r.Ok? ==> r.value.workflow in registry.modules.Values
  {
    var hasId :- Has(event, "id");
    if !hasId then Err(MissingId)
    else
      var id :- At(event, "id");
      var fields := event.fields;
      if "input" !in fields then Err(MissingInput)
      else
        var input := fields["input"];
        var hasPrompt :- Has(input, "prompt");
        if !hasPrompt then Err(MissingPrompt)
        else
          var prompt :- At(input, "prompt");
          var default :- match Workflows.GetDefaultWorkflow(registry)
            case Ok(loader) => Ok(loader)
            case Err(message) => Err(UnknownWorkflow(message));
          var options := input.fields;
          var workflow :- if "workflow" in options then LookupWorkflow(registry, options["workflow"]) else Ok(default);
          var aspect := if "aspect_ratio" in options then options["aspect_ratio"] else JStr("1_1");
          match Display(id)
          case Some(jobId) => Ok(Request(jobId, prompt, workflow, aspect))
          case None => Err(Raised(TypeError))
  }

  /** The missing-field checks run in the order `id`, `input`,
      `input.prompt`, each answered with its own error. */
  lemma RequestChecksInOrder(registry: Workflows.Registry, fields: map<string, Json>)
    ensures "id" !in fields ==> ParseRequest(registry, JObj(fields)) == Err(MissingId)
    ensures "id" in fields && "input" !in fields ==> ParseRequest(registry, JObj(fields)) == Err(MissingInput)
    ensures "id" in fields && "input" in fields && fields["input"].JObj? && "prompt" !in fields["input"].fields ==>
              ParseRequest(registry, JObj(fields)) == Err(MissingPrompt)
  {
  }

  /** An accepted request carries the event's prompt and id, the requested
      workflow or else the registry's default, and the requested aspect
      ratio or else "1_1". */
  lemma RequestDefaults(registry: Workflows.Registry, event: Json)
    requires ParseRequest(registry, event).Ok?
    ensures event.JObj? && "id" in event.fields && "input" in event.fields
    ensures var input := event.fields["input"];
      var req := ParseRequest(registry, event).value;
      && input.JObj? && "prompt" in input.fields
      && req.prompt == input.fields["prompt"]
      && Display(event.fields["id"]) == Some(req.jobId)
      && Workflows.DefaultWorkflowName in registry.modules
      && ("workflow" !in input.fields ==> req.workflow == registry.modules[Workflows.DefaultWorkflowName])
      && ("workflow" in input.fields ==>
            input.fields["workflow"].JStr? && input.fields["workflow"].s in registry.modules
            && req.workflow == registry.modules[input.fields["workflow"].s])
      && req.aspectRatio == (if "aspect_ratio" in input.fields then input.fields["aspect_ratio"] else JStr("1_1"))
  {
  }

  /** A request naming an unregistered workflow, or made while the default
      workflow is not registered, is refused. */
  lemma UnknownWorkflowRefused(registry: Workflows.Registry, event: Json)
    requires event.JObj? && "input" in event.fields && event.fields["input"].JObj?
    requires var options := event.fields["input"].fields;
      || Workflows.DefaultWorkflowName !in registry.modules
      || ("workflow" in options && !(options["workflow"].JStr? && options["workflow"].s in registry.modules))
    ensures ParseRequest(registry, event).Err?
  {
  }

  /** The graph submitted for an accepted request. */
  function GraphFor(config: Config, world: World, req: Request): Result<StableDiffusion.Graph, PyError>
    requires StableDiffusion.MinSeed <= world.seed <= StableDiffusion.MaxSeed
  {
    StableDiffusion.Load(req.workflow, req.prompt, req.aspectRatio, req.jobId, config.filenamePrefix, world.seed)
  }

  /** `process_job` once ComfyUI is up: build the graph, submit it, follow
      its events and fetch the image. A closed event stream is followed by
      the same fetch as a success; a stream still open when the messages
      run out is the deadline expiring. */
  function ProcessJob(config: Config, world: World, req: Request): (run: JobRun)
    requires StableDiffusion.MinSeed <= world.seed <= StableDiffusion.MaxSeed
    ensures GraphFor(config, world, req).Err? ==>
              run == JobRun(Err(Raised(GraphFor(config, world, req).error)), [])
    ensures |run.progress| <= |world.messages|
    ensures run.result.Ok? ==> run.result == Fetch(config, world, req.jobId)
  {
    match StableDiffusion.Load(req.workflow, req.prompt, req.aspectRatio, req.jobId, config.filenamePrefix, world.seed)
    case Err(e) => JobRun(Err(Raised(e)), [])
    case Ok(graph) =>
      match Submission.CheckResponse(world.submission)
      case Err(rejection) => JobRun(Err(Rejected(rejection)), [])
      case Ok(promptId) =>
        var monitoring := Progress.Monitor(promptId, |graph|, world.messages);
        match monitoring.outcome
        case Listening(_) => JobRun(Err(TimedOut), monitoring.emitted)
        case Ended(end) =>
          if end == Progress.Succeeded || end == Progress.ConnectionClosed then
            JobRun(Fetch(config, world, req.jobId), monitoring.emitted)
          else JobRun(Err(Failed(end)), monitoring.emitted)
  }

  /** The image of a finished job: its S3 URL (or "" without a bucket)
      when uploads are enabled, its base64 text otherwise. */
  function Fetch(config: Config, world: World, jobId: string): (r: Result<string, JobError>)
    ensures !config.s3Upload ==>
      var path := Artifacts.OutputImagePath(config.comfyPath, config.filenamePrefix, jobId);
      r == if path in world.files then Ok(world.files[path]) else Err(NoArtifact(Artifacts.FileNotFound(path)))
    ensures r.Ok? ==>
      || (!config.s3Upload && r.value in world.files.Values)
      || (config.s3Upload && (r.value == "" || "https://" <= r.value))
  {
    var fetched := if config.s3Upload then
      Artifacts.UploadImage(world.files, world.uploadSucceeds, config.bucket, config.region,
                            config.comfyPath, config.filenamePrefix, jobId)
    else Artifacts.Base64Image(world.files, config.comfyPath, config.filenamePrefix, jobId);
    match fetched
    case Ok(body) => Ok(body)
    case Err(e) => Err(NoArtifact(e))
  }

  /** `handler(event)`. */
  function Handle(config: Config, world: World, event: Json): (reply: Reply)
    requires StableDiffusion.MinSeed <= world.seed <= StableDiffusion.MaxSeed
    ensures config.healthCheck ==> reply == Reply("OK", [])
    ensures !config.healthCheck && ParseRequest(world.registry, event).Err? ==> reply == Reply("ERROR", [])
    ensures (!config.healthCheck && ParseRequest(world.registry, event).Ok?
             && GraphFor(config, world, ParseRequest(world.registry, event).value).Err?)
            ==> reply == Reply("ERROR", [])
    ensures |reply.progress| <= |world.messages|
  {
    if config.healthCheck then Reply("OK", [])
    else match ParseRequest(world.registry, event)
      case Err(_) => Reply("ERROR", [])
      case Ok(req) =>
        var run := ProcessJob(config, world, req);
        match run.result
        case Ok(body) => Reply(body, run.progress)
        case Err(_) => Reply("ERROR", run.progress)
  }

  /** Every graph has seven nodes, so the progress formula runs with T = 7. */
  lemma GraphHasSevenNodes(config: Config, world: World, req: Request)
    requires StableDiffusion.MinSeed <= world.seed <= StableDiffusion.MaxSeed
    requires GraphFor(config, world, req).Ok?
    ensures |GraphFor(config, world, req).value| == 7
  {
    var g := GraphFor(config, world, req).value;
    StableDiffusion.NodeCount();
    assert |g| == |g.Keys|;
  }

  /** A submission the engine refuses is answered with "ERROR" before the
      event stream is consulted, so nothing is reported. */
  lemma RejectedSubmissionReportsNothing(config: Config, world: World, event: Json)
    requires StableDiffusion.MinSeed <= world.seed <= StableDiffusion.MaxSeed
    requires !config.healthCheck && ParseRequest(world.registry, event).Ok?
    requires Submission.CheckResponse(world.submission).Err?
    ensures Handle(config, world, event) == Reply("ERROR", [])
  {
  }

  /** Once the graph is accepted, the reply follows how monitoring of the
      seven-node graph ends: the reported percentages are passed on, an
      open stream (the deadline) and a failed or crashed run give "ERROR",
      and a success or a closed stream give the fetched image. */
  lemma MonitoringDecides(config: Config, world: World, event: Json)
    requires StableDiffusion.MinSeed <= world.seed <= StableDiffusion.MaxSeed
    requires !config.healthCheck && ParseRequest(world.registry, event).Ok?
    requires GraphFor(config, world, ParseRequest(world.registry, event).value).Ok?
    requires Submission.CheckResponse(world.submission).Ok?
    ensures var req := ParseRequest(world.registry, event).value;
      var monitoring := Progress.Monitor(Submission.CheckResponse(world.submission).value, 7, world.messages);
      var reply := Handle(config, world, event);
      && reply.progress == monitoring.emitted
      && (monitoring.outcome.Listening? ==> reply.body == "ERROR")
      && ((monitoring.outcome.Ended? && (monitoring.outcome.end.ExecutionFailed? || monitoring.outcome.end.Crashed?))
            ==> reply.body == "ERROR")
      && ((monitoring.outcome == Progress.Ended(Progress.Succeeded)
           || monitoring.outcome == Progress.Ended(Progress.ConnectionClosed))
            ==> reply.body == (match Fetch(config, world, req.jobId) case Ok(body) => body case Err(_) => "ERROR"))
  {
    var req := ParseRequest(world.registry, event).value;
    GraphHasSevenNodes(config, world, req);
    var graph := GraphFor(config, world, req).value;
    assert |graph| == 7;
    var monitoring := Progress.Monitor(Submission.CheckResponse(world.submission).value, |graph|, world.messages);
    var run := ProcessJob(config, world, req);
    assert run.progress == monitoring.emitted;
    assert Handle(config, world, event) == (if run.result.Ok? then Reply(run.result.value, run.progress) else Reply("ERROR", run.progress));
  }

  /** A closed event stream is answered exactly as a success. */
  lemma ClosedStreamAnsweredAsSuccess(config: Config, world: World, closing: seq<Progress.Message>, event: Json)
    requires StableDiffusion.MinSeed <= world.seed <= StableDiffusion.MaxSeed
    requires !config.healthCheck && ParseRequest(world.registry, event).Ok?
    requires GraphFor(config, world, ParseRequest(world.registry, event).value).Ok?
    requires Submission.CheckResponse(world.submission).Ok?
    requires Progress.Monitor(Submission.CheckResponse(world.submission).value, 7, world.messages).outcome
               == Progress.Ended(Progress.Succeeded)
    requires Progress.Monitor(Submission.CheckResponse(world.submission).value, 7, closing).outcome
               == Progress.Ended(Progress.ConnectionClosed)
    ensures Handle(config, world, event).body == Handle(config, world.(messages := closing), event).body
  {
    MonitoringDecides(config, world, event);
    MonitoringDecides(config, world.(messages := closing), event);
  }

  /** The inline image returned after a success is the file named by the
      graph's own SaveImage prefix: `<comfy path>/output/<prefix>_00001_.png`. */
  lemma ReturnsSavedImage(config: Config, world: World, event: Json)
    requires StableDiffusion.MinSeed <= world.seed <= StableDiffusion.MaxSeed
    requires !config.healthCheck && !config.s3Upload && ParseRequest(world.registry, event).Ok?
    requires GraphFor(config, world, ParseRequest(world.registry, event).value).Ok?
    requires Submission.CheckResponse(world.submission).Ok?
    requires Progress.Monitor(Submission.CheckResponse(world.submission).value, 7, world.messages).outcome
               == Progress.Ended(Progress.Succeeded)
    ensures var req := ParseRequest(world.registry, event).value;
      var graph := GraphFor(config, world, req).value;
      var saved := StableDiffusion.InputAt(graph, "9", "filename_prefix");
      var path := Artifacts.OutputImagePath(config.comfyPath, config.filenamePrefix, req.jobId);
      && saved.Some? && saved.value.Str?
      && path == config.comfyPath + "/output/" + saved.value.s + Artifacts.OutputSuffix
      && Handle(config, world, event).body == (if path in world.files then world.files[path] else "ERROR")
  {
    var req := ParseRequest(world.registry, event).value;
    assert req.aspectRatio.JStr?;
    StableDiffusion.LoadPlacesSavePrefix(req.workflow, req.prompt, req.aspectRatio.s, req.jobId, config.filenamePrefix, world.seed);
    MonitoringDecides(config, world, event);
  }

  /** When every reported node is a graph node and every sub-progress is
      within its maximum, the job reports only percentages in [0, 100]. */
  lemma ReportsWithinBounds(config: Config, world: World, event: Json)
    requires StableDiffusion.MinSeed <= world.seed <= StableDiffusion.MaxSeed
    requires forall i :: 0 <= i < |world.messages| ==> Progress.WellBehaved(StableDiffusion.NodeIds, world.messages[i])
    ensures forall p :: p in Handle(config, world, event).progress ==> 0 <= p <= 100
  {
    if !config.healthCheck && ParseRequest(world.registry, event).Ok?
       && GraphFor(config, world, ParseRequest(world.registry, event).value).Ok?
       && Submission.CheckResponse(world.submission).Ok?
    {
      MonitoringDecides(config, world, event);
      StableDiffusion.NodeCount();
      Progress.RunWithinBounds(Submission.CheckResponse(world.submission).value, StableDiffusion.NodeIds, {}, world.messages);
    }
  }

  /** Every answer is "OK", "ERROR", or an image: the content of an output
      file, or with uploads enabled an S3 URL or the empty string. */
  lemma ReplyShape(config: Config, world: World, event: Json)
    requires StableDiffusion.MinSeed <= world.seed <= StableDiffusion.MaxSeed
    ensures var body := Handle(config, world, event).body;
      || body == "OK" || body == "ERROR"
      || (!config.s3Upload && body in world.files.Values)
      || (config.s3Upload && (body == "" || "https://" <= body))
  {
  }
}

=== FILE: presets.dfy ===
/** The three shipped workflow modules: each instantiates the standard
    Stable Diffusion loader with its own constants. */
module Presets {
  import opened Results
  import opened PyJson
  import opened StableDiffusion
  import Dimensions

  const Sd15NegativePrompt := "text, watermark, blurry, low quality, bad quality"
  const Lightning4StepNegativePrompt := "text, watermark, blurry, low quality, bad quality"
  const Lightning6StepNegativePrompt := "text, watermark, blurry, low quality, bad quality"

  /** `sd_1_5.load`: the template's default sampler, scheduler and denoise. */
  const Sd15: Loader := BuildWorkflowLoader(
    "v1-5-pruned-emaonly.safetensors", Sd15NegativePrompt, 768, 40, Int(9))

  /** `sdxl_lightning_4step.load`. */
  const SdxlLightning4Step: Loader := BuildWorkflowLoader(
    "sdxl_lightning_4step.safetensors", Lightning4StepNegativePrompt, 1024, 4, Fixed(15, 1), "dpmpp_sde")

  /** `sdxl_lightning_6step_juggernaut_xi.load`. */
  const SdxlLightning6StepJuggernautXi: Loader := BuildWorkflowLoader(
    "juggernautXL_juggXILightningByRD.safetensors", Lightning6StepNegativePrompt, 1024, 6, Fixed(15, 1), "dpmpp_sde")

  /** The sd_1_5 settings: 40 steps at cfg 9, the template defaults
      `euler` / `normal` / 1, 768 pixels at most. */
  lemma Sd15Settings()
    ensures Sd15.steps == 40 && Sd15.cfg == Int(9)
    ensures Sd15.sampler == "euler" && Sd15.scheduler == "normal" && Sd15.denoise == Int(1)
    ensures Sd15.maxSize == 768
    ensures Sd15.checkpoint == "v1-5-pruned-emaonly.safetensors"
  {
  }

  /** The two Lightning configurations: cfg 1.5, `dpmpp_sde`, the default
      scheduler and denoise, 1024 pixels at most and the sd_1_5 negative
      prompt; the Juggernaut one differs from the 4-step one only in its
      checkpoint and its step count. */
  lemma LightningSettings()
    ensures SdxlLightning4Step.steps == 4 && SdxlLightning4Step.cfg == Fixed(15, 1)
    ensures SdxlLightning4Step.sampler == "dpmpp_sde"
    ensures SdxlLightning4Step.scheduler == "normal" && SdxlLightning4Step.denoise == Int(1)
    ensures SdxlLightning4Step.maxSize == 1024
    ensures SdxlLightning4Step.negativePrompt == Sd15.negativePrompt
    ensures SdxlLightning6StepJuggernautXi.steps == 6
    ensures SdxlLightning6StepJuggernautXi == SdxlLightning4Step.(
              checkpoint := "juggernautXL_juggXILightningByRD.safetensors", steps := 6)
  {
  }

  /** Any sd_1_5 graph is at most 768 pixels on either side, and the default
      "1_1" ratio gives exactly 768 x 768. */
  lemma Sd15Dimensions(positivePrompt: Json, aspect: string, jobId: string, filenamePrefix: string, seed: int)
    requires MinSeed <= seed <= MaxSeed
    requires Load(Sd15, positivePrompt, JStr(aspect), jobId, filenamePrefix, seed).Ok?
    ensures var dims := Dimensions.CalculateDimensions(768, aspect).value;
      && InputAt(Load(Sd15, positivePrompt, JStr(aspect), jobId, filenamePrefix, seed).value, "5", "width") == Some(Num(Int(dims.0)))
      && InputAt(Load(Sd15, positivePrompt, JStr(aspect), jobId, filenamePrefix, seed).value, "5", "height") == Some(Num(Int(dims.1)))
      && dims.0 <= 768 && dims.1 <= 768
      && (aspect == "1_1" ==> dims == (768, 768))
  {
    LoadPlacesDimensions(Sd15, positivePrompt, aspect, jobId, filenamePrefix, seed);
    var ratio := Dimensions.ParseRatio(aspect).value;
    Dimensions.ScaleAtMostMax(768, ratio.0, ratio.1);
    Dimensions.DefaultRatioIsSquare(768);
  }

  /** Both Lightning configurations render "1_1" at 1024 x 1024 and never
      exceed 1024 on either side. */
  lemma LightningDimensions(aspect: string)
    requires Dimensions.CalculateDimensions(1024, aspect).Ok?
    ensures SdxlLightning4Step.maxSize == SdxlLightning6StepJuggernautXi.maxSize == 1024
    ensures var dims := Dimensions.CalculateDimensions(1024, aspect).value;
      dims.0 <= 1024 && dims.1 <= 1024 && (aspect == "1_1" ==> dims == (1024, 1024))
  {
    var ratio := Dimensions.ParseRatio(aspect).value;
    Dimensions.ScaleAtMostMax(1024, ratio.0, ratio.1);
    Dimensions.DefaultRatioIsSquare(1024);
  }
}

=== FILE: progress.dfy ===
/** `handle_websocket` as a fold: each decoded message of the engine's
    event stream either changes nothing, records a node and reports a
    percentage, or ends monitoring. The socket itself is abstracted into
    the sequence of messages it delivers. */
module Progress {
  import opened Results
  import opened PyJson
  import Dimensions

  /** What one `websocket.recv()` + `json.loads` yields: the connection
      closing, a frame that is not JSON, or a decoded value. */
  datatype Message = Closed | Undecodable | Decoded(body: Json)

  /** How monitoring ends: a normal return, the `RuntimeError` of an
      `execution_error` event carrying its message, the `break` on a
      closed connection, or an exception escaping the loop. */
  datatype Terminal = Succeeded | ExecutionFailed(error: Json) | ConnectionClosed | Crashed(cause: PyError)

  /** The effect of one message: carry on with the new seen-set, or stop;
      either way possibly reporting a percentage first. */
  datatype StepResult =
    | Continue(seen: set<Label>, emit: Option<int>)
    | Stop(emit: Option<int>, end: Terminal)

  /** `int(math.ceil(a / b))` computed exactly. */
  function CeilDiv(a: int, b: int): (r: int)
    requires b != 0
    ensures b > 0 ==> (r - 1) * b < a <= r * b
    ensures b < 0 ==> r * b <= a < (r - 1) * b
  {
    if b > 0 then -((-a) / b) else -(a / (-b))
  }

  const UnknownError: Json := JStr("Unknown error occurred")

  /** The `executing` / `progress` branch for a matching event whose data
      is the dict `data`; `total` is the number of graph nodes. */
  function NodeProgress(total: int, seen: set<Label>, data: map<string, Json>): (r: Result<StepResult, PyError>)
    requires total > 0
    ensures r.Ok? && r.value.Continue? && r.value.emit.None? ==> r.value.seen == seen
    ensures r.Ok? ==> r.value.Continue? && seen <= r.value.seen && |r.value.seen| <= |seen| + 1
  {
    if "node" !in data || !Truthy(data["node"]) then Ok(Continue(seen, None))
    else
      var tag :- LabelOf(data["node"]);
      var seen' := seen + {tag};
      var n := |seen'|;
      if "max" in data && "value" in data then
        var value :- ToFloat(data["value"]);
        var max :- ToFloat(data["max"]);
        if max == 0 then Err(ZeroDivisionError)
        else Ok(Continue(seen', Some(CeilDiv(100 * (n - 1) * max + 100 * value, total * max))))
      else Ok(Continue(seen', Some(CeilDiv(100 * (n - 1), total))))
  }

  /** The loop body for a decoded message, up to the exceptions it raises. */
  function Handle(promptId: Json, total: int, seen: set<Label>, body: Json): (r: Result<StepResult, PyError>)
    requires total > 0
    ensures r.Ok? && r.value.Stop? && r.value.end == Succeeded ==> r.value.emit == Some(99)
    ensures r.Ok? && r.value.Continue? ==> seen <= r.value.seen && |r.value.seen| <= |seen| + 1
    ensures r.Ok? && r.value.Continue? && r.value.emit.None? ==> r.value.seen == seen
  {
    var hasType :- Contains(body, "type");
    if !hasType || !Contains(body, "data").value then Ok(Continue(seen, None))
    else
      var kind :- Get(body, "type");
      var data := body.fields["data"];
      var hasId :- Contains(data, "prompt_id");
      if !hasId then Ok(Continue(seen, None))
      else
        var id :- Get(data, "prompt_id");
        if !PyEq(id, promptId) then Ok(Continue(seen, None))
        else if kind == JStr("executing") || kind == JStr("progress") then NodeProgress(total, seen, data.fields)
        else if kind == JStr("execution_success") then Ok(Stop(Some(99), Succeeded))
        else if kind == JStr("execution_error") then
          Ok(Stop(None, ExecutionFailed(if "error" in data.fields then data.fields["error"] else UnknownError)))
        else Ok(Continue(seen, None))
  }

  /** One iteration of the receive loop. */
  function Step(promptId: Json, total: int, seen: set<Label>, m: Message): (r: StepResult)
    requires total > 0
    ensures r.Stop? && r.end == Succeeded ==> r.emit == Some(99)
    ensures r.Continue? ==> seen <= r.seen && |r.seen| <= |seen| + 1
    ensures r.Continue? && r.emit.None? ==> r.seen == seen
    ensures m.Closed? ==> r == Stop(None, ConnectionClosed)
    ensures m.Undecodable? ==> r == Stop(None, Crashed(ValueError))
  {
    match m
    case Closed => Stop(None, ConnectionClosed)
    case Undecodable => Stop(None, Crashed(ValueError))
    case Decoded(body) =>
      match Handle(promptId, total, seen, body)
      case Ok(s) => s
      case Err(e) => Stop(None, Crashed(e))
  }

  /** Where monitoring stands after the delivered messages: ended, or
      still listening with the nodes seen so far. */
  datatype Outcome = Ended(end: Terminal) | Listening(seen: set<Label>)

  /** The percentages reported through `update_job`, in order, and how
      monitoring stands. */
  datatype Monitoring = Monitoring(emitted: seq<int>, outcome: Outcome)

  function Emitted(e: Option<int>): seq<int> {
    if e.Some? then [e.value] else []
  }

  /** The receive loop over `msgs`, starting from `seen`. */
  function Run(promptId: Json, total: int, seen: set<Label>, msgs: seq<Message>): (r: Monitoring)
    requires total > 0
    ensures |r.emitted| <= |msgs|
    ensures r.outcome == Ended(Succeeded) ==> |r.emitted| > 0 && r.emitted[|r.emitted| - 1] == 99
    ensures r.outcome.Listening? ==> seen <= r.outcome.seen && |r.outcome.seen| <= |seen| + |msgs|
    decreases |msgs|
  {
    if msgs == [] then Monitoring([], Listening(seen))
    else match Step(promptId, total, seen, msgs[0])
      case Continue(seen', e) =>
        var rest := Run(promptId, total, seen', msgs[1..]);
        Monitoring(Emitted(e) + rest.emitted, rest.outcome)
      case Stop(e, end) => Monitoring(Emitted(e), Ended(end))
  }

  /** `handle_websocket(prompt_id, ...)` for a graph of `total` nodes: an
      empty graph fails on `100 / float(0)` before connecting. */
  function Monitor(promptId: Json, total: nat, msgs: seq<Message>): (r: Monitoring)
    ensures total == 0 ==> r == Monitoring([], Ended(Crashed(ZeroDivisionError)))
    ensures r.outcome == Ended(Succeeded) ==> |r.emitted| > 0 && r.emitted[|r.emitted| - 1] == 99
    ensures r.outcome.Listening? ==> |r.outcome.seen| <= |msgs|
  {
    if total == 0 then Monitoring([], Ended(Crashed(ZeroDivisionError)))
    else Run(promptId, total, {}, msgs)
  }

  // ---------------------------------------------------------------------
  // Which events are ignored

  /** An event the loop skips, stated over a dict body whose `data`, when
      present, is a dict: no `type` or `data`, a missing or different
      `prompt_id`, an unhandled type, or an `executing` / `progress` event
      with no truthy `node`. */
  predicate Ignored(promptId: Json, body: map<string, Json>)
    requires "data" in body ==> body["data"].JObj?
  {
    || "type" !in body
    || "data" !in body
    || "prompt_id" !in body["data"].fields
    || !PyEq(body["data"].fields["prompt_id"], promptId)
    || body["type"] !in [JStr("executing"), JStr("progress"), JStr("execution_success"), JStr("execution_error")]
    || (body["type"] in [JStr("executing"), JStr("progress")]
        && ("node" !in body["data"].fields || !Truthy(body["data"].fields["node"])))
  }

  /** A dict event is skipped without any effect exactly when it is
      `Ignored`; every other dict event records, reports or stops. */
  lemma IgnoredIff(promptId: Json, total: int, seen: set<Label>, body: map<string, Json>)
    requires total > 0
    requires "data" in body ==> body["data"].JObj?
    ensures Step(promptId, total, seen, Decoded(JObj(body))) == Continue(seen, None) <==> Ignored(promptId, body)
  {
    var r := Step(promptId, total, seen, Decoded(JObj(body)));
    if !Ignored(promptId, body) {
      var data := body["data"].fields;
      assert Handle(promptId, total, seen, JObj(body)) ==
        if body["type"] == JStr("executing") || body["type"] == JStr("progress") then NodeProgress(total, seen, data)
        else if body["type"] == JStr("execution_success") then Ok(Stop(Some(99), Succeeded))
        else Ok(Stop(None, ExecutionFailed(if "error" in data then data["error"] else UnknownError)));
    }
  }

  // ---------------------------------------------------------------------
  // What matching events do

  /** A matching `executing` / `progress` event with a hashable truthy
      node records it and reports `ceil(100 * (n - 1) / T + (100 / T) *
      value / max)` for `n` seen nodes, the second term only when both
      `value` and `max` are present. */
  lemma NodeEventReports(promptId: Json, total: int, seen: set<Label>, body: map<string, Json>, tag: Label)
    requires total > 0
    requires "type" in body && body["type"] in [JStr("executing"), JStr("progress")]
    requires "data" in body && body["data"].JObj?
    requires var data := body["data"].fields;
      && "prompt_id" in data && PyEq(data["prompt_id"], promptId)
      && "node" in data && Truthy(data["node"]) && LabelOf(data["node"]) == Ok(tag)
    ensures var data := body["data"].fields;
      var r := Step(promptId, total, seen, Decoded(JObj(body)));
      var n := |seen + {tag}|;
      && ("max" !in data || "value" !in data ==>
            r == Continue(seen + {tag}, Some(CeilDiv(100 * (n - 1), total))))
      && ("max" in data && "value" in data && ToFloat(data["value"]).Ok? && ToFloat(data["max"]).Ok?
            && ToFloat(data["max"]).value != 0 ==>
            var value := ToFloat(data["value"]).value;
            var max := ToFloat(data["max"]).value;
            r == Continue(seen + {tag}, Some(CeilDiv(100 * (n - 1) * max + 100 * value, total * max))))
  {
  }

  /** A `max` of zero, a value `float()` rejects, or an unhashable node
      makes monitoring fail. */
  lemma NodeEventFailures(promptId: Json, total: int, seen: set<Label>, body: map<string, Json>)
    requires total > 0
    requires "type" in body && body["type"] in [JStr("executing"), JStr("progress")]
    requires "data" in body && body["data"].JObj?
    requires var data := body["data"].fields;
      && "prompt_id" in data && PyEq(data["prompt_id"], promptId)
      && "node" in data && Truthy(data["node"])
    ensures var data := body["data"].fields;
      var r := Step(promptId, total, seen, Decoded(JObj(body)));
      && (data["node"].JArr? || data["node"].JObj? ==> r == Stop(None, Crashed(TypeError)))
      && ((LabelOf(data["node"]).Ok? && "max" in data && "value" in data
             && ToFloat(data["value"]).Ok? && ToFloat(data["max"]) == Ok(0))
            ==> r == Stop(None, Crashed(ZeroDivisionError)))
      && ((LabelOf(data["node"]).Ok? && "max" in data && "value" in data && ToFloat(data["value"]).Err?)
            ==> r == Stop(None, Crashed(ToFloat(data["value"]).error)))
  {
  }

  /** A matching `execution_success` reports 99 and ends normally; a
      matching `execution_error` fails with `data["error"]`, or with
      "Unknown error occurred" when there is none. */
  lemma TerminalEvents(promptId: Json, total: int, seen: set<Label>, body: map<string, Json>)
    requires total > 0
    requires "type" in body && "data" in body && body["data"].JObj?
    requires "prompt_id" in body["data"].fields && PyEq(body["data"].fields["prompt_id"], promptId)
    ensures body["type"] == JStr("execution_success") ==>
      Step(promptId, total, seen, Decoded(JObj(body))) == Stop(Some(99), Succeeded)
    ensures body["type"] == JStr("execution_error") ==>
      var data := body["data"].fields;
      Step(promptId, total, seen, Decoded(JObj(body)))
        == Stop(None, ExecutionFailed(if "error" in data then data["error"] else JStr("Unknown error occurred")))
  {
  }

  // ---------------------------------------------------------------------
  // Bounds of the reported percentage

  /** The labels of a graph's node ids. */
  function GraphLabels(keys: set<string>): (labels: set<Label>)
    ensures forall k :: k in keys ==> LStr(k) in labels
  {
    set k | k in keys :: LStr(k)
  }

  lemma {:induction false} GraphLabelsCount(keys: set<string>)
    ensures |GraphLabels(keys)| == |keys|
    decreases |keys|
  {
    if keys != {} {
      var k :| k in keys;
      var rest := keys - {k};
      GraphLabelsCount(rest);
      assert GraphLabels(keys) == GraphLabels(rest) + {LStr(k)};
      assert LStr(k) !in GraphLabels(rest);
    }
  }

  lemma {:induction false} SubsetCount<T>(a: set<T>, b: set<T>)
    requires a <= b
    ensures |a| <= |b|
    decreases |a|
  {
    if a != {} {
      var x :| x in a;
      SubsetCount(a - {x}, b - {x});
    }
  }

  /** With `1 <= n <= total` nodes seen and `0 <= value <= max`, `max > 0`,
      both forms of the formula land in [0, 100]. */
  lemma PercentBounds(n: int, total: int, value: int, max: int)
    requires 1 <= n <= total && 0 <= value <= max && max > 0
    ensures 0 <= CeilDiv(100 * (n - 1) * max + 100 * value, total * max) <= 100
    ensures 0 <= CeilDiv(100 * (n - 1), total) <= 100
  {
    var b := total * max;
    assert b > 0;
    var a := 100 * (n - 1) * max + 100 * value;
    assert 0 <= a by { assert (n - 1) * max >= 0; }
    assert a <= 100 * b by {
      assert 100 * value <= 100 * max;
      assert (n - 1) * max + max == n * max;
      assert n * max <= total * max;
    }
    var r := CeilDiv(a, b);
    Dimensions.LessByFactor(-1, r, b);
    Dimensions.LessByFactor(r - 1, 100, b);
    var r' := CeilDiv(100 * (n - 1), total);
    Dimensions.LessByFactor(-1, r', total);
    Dimensions.LessByFactor(r' - 1, 100, total);
  }

  /** Messages whose reported nodes are graph ids and whose sub-progress
      satisfies `0 <= value <= max`, `max > 0`. */
  predicate WellBehaved(keys: set<string>, m: Message) {
    m.Decoded? && m.body.JObj? && "data" in m.body.fields && m.body.fields["data"].JObj? ==>
      var data := m.body.fields["data"].fields;
      && ("node" in data && Truthy(data["node"]) ==> data["node"].JStr? && data["node"].s in keys)
      && ("max" in data && "value" in data ==>
            && ToFloat(data["value"]).Ok? && ToFloat(data["max"]).Ok?
            && 0 <= ToFloat(data["value"]).value <= ToFloat(data["max"]).value
            && ToFloat(data["max"]).value > 0)
  }

  lemma NodeProgressWithinBounds(keys: set<string>, seen: set<Label>, data: map<string, Json>)
    requires |keys| > 0 && seen <= GraphLabels(keys)
    requires WellBehaved(keys, Decoded(JObj(map["data" := JObj(data)])))
    ensures var r := NodeProgress(|keys|, seen, data);
      r.Ok? ==> r.value.seen <= GraphLabels(keys) && (r.value.emit.Some? ==> 0 <= r.value.emit.value <= 100)
  {
    if "node" in data && Truthy(data["node"]) {
      var seen' := seen + {LStr(data["node"].s)};
      assert seen' <= GraphLabels(keys);
      GraphLabelsCount(keys);
      SubsetCount(seen', GraphLabels(keys));
      if "max" in data && "value" in data {
        PercentBounds(|seen'|, |keys|, ToFloat(data["value"]).value, ToFloat(data["max"]).value);
      } else {
        PercentBounds(|seen'|, |keys|, 0, 1);
      }
    }
  }

  /** One well-behaved message keeps the seen nodes among the graph's and
      reports a percentage in [0, 100], if any. */
  lemma StepWithinBounds(promptId: Json, keys: set<string>, seen: set<Label>, m: Message)
    requires |keys| > 0 && seen <= GraphLabels(keys) && WellBehaved(keys, m)
    ensures var r := Step(promptId, |keys|, seen, m);
      && (r.Continue? ==> r.seen <= GraphLabels(keys))
      && (r.emit.Some? ==> 0 <= r.emit.value <= 100)
  {
    if m.Decoded? {
      HandleWithinBounds(promptId, keys, seen, m.body);
    }
  }

  lemma HandleWithinBounds(promptId: Json, keys: set<string>, seen: set<Label>, body: Json)
    requires |keys| > 0 && seen <= GraphLabels(keys) && WellBehaved(keys, Decoded(body))
    ensures var r := Handle(promptId, |keys|, seen, body);
      && (r.Ok? && r.value.Continue? ==> r.value.seen <= GraphLabels(keys))
      && (r.Ok? && r.value.emit.Some? ==> 0 <= r.value.emit.value <= 100)
  {
    if body.JObj? && "type" in body.fields && "data" in body.fields && body.fields["data"].JObj? {
      var data := body.fields["data"].fields;
      assert WellBehaved(keys, Decoded(JObj(map["data" := JObj(data)])));
      NodeProgressWithinBounds(keys, seen, data);
    }
  }

  /** Under well-behaved messages every reported percentage is in [0, 100]. */
  lemma {:induction false} RunWithinBounds(promptId: Json, keys: set<string>, seen: set<Label>, msgs: seq<Message>)
    requires |keys| > 0 && seen <= GraphLabels(keys)
    requires forall i :: 0 <= i < |msgs| ==> WellBehaved(keys, msgs[i])
    ensures forall p :: p in Run(promptId, |keys|, seen, msgs).emitted ==> 0 <= p <= 100
    decreases |msgs|
  {
    if msgs != [] {
      StepWithinBounds(promptId, keys, seen, msgs[0]);
      match Step(promptId, |keys|, seen, msgs[0])
      case Continue(seen', e) =>
        assert forall i :: 0 <= i < |msgs[1..]| ==> msgs[1..][i] == msgs[i + 1];
        RunWithinBounds(promptId, keys, seen', msgs[1..]);
        var rest := Run(promptId, |keys|, seen', msgs[1..]);
        assert Run(promptId, |keys|, seen, msgs).emitted == Emitted(e) + rest.emitted;
      case Stop(e, end) =>
    }
  }

  // ---------------------------------------------------------------------
  // The fold

  /** The receive loop for any step function; `Run` is its instance for
      `Step`. */
  function Fold(step: (set<Label>, Message) -> StepResult, seen: set<Label>, msgs: seq<Message>): Monitoring
    decreases |msgs|
  {
    if msgs == [] then Monitoring([], Listening(seen))
    else match step(seen, msgs[0])
      case Continue(seen', e) =>
        var rest := Fold(step, seen', msgs[1..]);
        Monitoring(Emitted(e) + rest.emitted, rest.outcome)
      case Stop(e, end) => Monitoring(Emitted(e), Ended(end))
  }

  /** `Step` as a step function; the guard only makes it total. */
  function StepOf(promptId: Json, total: int): (set<Label>, Message) -> StepResult {
    (seen, m) => if total > 0 then Step(promptId, total, seen, m) else Stop(None, Crashed(ZeroDivisionError))
  }

  /** The receive loop is the fold of `Step`. */
  lemma {:induction false} RunIsFold(promptId: Json, total: int, seen: set<Label>, msgs: seq<Message>)
    requires total > 0
    ensures Run(promptId, total, seen, msgs) == Fold(StepOf(promptId, total), seen, msgs)
    decreases |msgs|
  {
    if msgs != [] {
      match Step(promptId, total, seen, msgs[0])
      case Continue(seen', e) =>
        RunIsFold(promptId, total, seen', msgs[1..]);
      case Stop(e, end) =>
    }
  }

  /** Folding over `xs + ys` is folding over `xs` and, unless that ended,
      carrying on over `ys` from where it stopped. */
  lemma {:induction false} FoldConcat(step: (set<Label>, Message) -> StepResult, seen: set<Label>, xs: seq<Message>, ys: seq<Message>)
    ensures var first := Fold(step, seen, xs);
      Fold(step, seen, xs + ys) ==
        if first.outcome.Ended? then first
        else
          var second := Fold(step, first.outcome.seen, ys);
          Monitoring(first.emitted + second.emitted, second.outcome)
    decreases |xs|
  {
    if xs == [] {
      assert xs + ys == ys;
    } else {
      assert (xs + ys)[0] == xs[0];
      assert (xs + ys)[1..] == xs[1..] + ys;
      match step(seen, xs[0])
      case Continue(seen', e) =>
        FoldConcat(step, seen', xs[1..], ys);
        var first := Fold(step, seen', xs[1..]);
        if !first.outcome.Ended? {
          var second := Fold(step, first.outcome.seen, ys);
          assert Emitted(e) + (first.emitted + second.emitted) == (Emitted(e) + first.emitted) + second.emitted;
        }
      case Stop(e, end) =>
    }
  }

  /** Delivering `xs` then `ys` is running over `xs` and, if still
      listening, carrying on over `ys` from the nodes seen so far. */
  lemma RunConcat(promptId: Json, total: int, seen: set<Label>, xs: seq<Message>, ys: seq<Message>)
    requires total > 0
    ensures var first := Run(promptId, total, seen, xs);
      Run(promptId, total, seen, xs + ys) ==
        if first.outcome.Ended? then first
        else
          var second := Run(promptId, total, first.outcome.seen, ys);
          Monitoring(first.emitted + second.emitted, second.outcome)
  {
    RunIsFold(promptId, total, seen, xs);
    RunIsFold(promptId, total, seen, xs + ys);
    FoldConcat(StepOf(promptId, total), seen, xs, ys);
    var first := Run(promptId, total, seen, xs);
    if first.outcome.Listening? {
      RunIsFold(promptId, total, first.outcome.seen, ys);
    }
  }

  /** Nothing delivered after a terminal event has any effect. */
  lemma StopsAtTerminal(promptId: Json, total: int, seen: set<Label>, xs: seq<Message>, ys: seq<Message>)
    requires total > 0
    requires Run(promptId, total, seen, xs).outcome.Ended?
    ensures Run(promptId, total, seen, xs + ys) == Run(promptId, total, seen, xs)
  {
    RunConcat(promptId, total, seen, xs, ys);
  }

  /** An ignored event can be removed from the stream without changing
      what is reported or how monitoring ends. */
  lemma {:induction false} IgnoredInvisible(promptId: Json, total: int, seen: set<Label>,
                                          pre: seq<Message>, body: map<string, Json>, post: seq<Message>)
    requires total > 0
    requires "data" in body ==> body["data"].JObj?
    requires Ignored(promptId, body)
    ensures Run(promptId, total, seen, pre + [Decoded(JObj(body))] + post) == Run(promptId, total, seen, pre + post)
    decreases |pre|
  {
    var m := Decoded(JObj(body));
    if pre == [] {
      assert pre + [m] + post == [m] + post;
      assert ([m] + post)[1..] == post;
      assert pre + post == post;
      IgnoredIff(promptId, total, seen, body);
    } else {
      assert (pre + [m] + post)[0] == pre[0] && (pre + post)[0] == pre[0];
      assert (pre + [m] + post)[1..] == pre[1..] + [m] + post;
      assert (pre + post)[1..] == pre[1..] + post;
      match Step(promptId, total, seen, pre[0])
      case Continue(seen', e) =>
        IgnoredInvisible(promptId, total, seen', pre[1..], body, post);
      case Stop(e, end) =>
    }
  }

  // ---------------------------------------------------------------------
  // Concrete runs

  /** A decoded event `{"type": kind, "data": data}`. */
  function Event(kind: string, data: map<string, Json>): Message {
    Decoded(JObj(map["type" := JStr(kind), "data" := JObj(data)]))
  }

  /** Running over two messages, given what each step does. */
  lemma RunTwo(promptId: Json, total: int, m1: Message, m2: Message, s1: set<Label>, s2: set<Label>, p1: int, p2: int)
    requires total > 0
    requires Step(promptId, total, {}, m1) == Continue(s1, Some(p1))
    requires Step(promptId, total, s1, m2) == Continue(s2, Some(p2))
    ensures Run(promptId, total, {}, [m1, m2]) == Monitoring([p1, p2], Listening(s2))
  {
    assert [m1, m2][1..] == [m2];
    assert [m2][1..] == [];
    assert Run(promptId, total, s2, []) == Monitoring([], Listening(s2));
    assert Run(promptId, total, s1, [m2]) == Monitoring([p2] + [], Listening(s2));
    assert [p2] + [] == [p2];
    assert Run(promptId, total, {}, [m1, m2]) == Monitoring([p1] + [p2], Listening(s2));
  }

  /** `{"prompt_id": promptId, "node": node}`. */
  function NodeData(promptId: Json, node: string): map<string, Json> {
    map["prompt_id" := promptId, "node" := JStr(node)]
  }

  /** `NodeData` with sub-progress `value` of `max`. */
  function StepData(promptId: Json, node: string, value: int, max: int): map<string, Json> {
    NodeData(promptId, node)["value" := JNum(value)]["max" := JNum(max)]
  }

  lemma NodeStep(promptId: Json, total: int, seen: set<Label>, kind: string, node: string)
    requires total > 0 && (kind == "executing" || kind == "progress") && node != ""
    ensures Step(promptId, total, seen, Event(kind, NodeData(promptId, node)))
              == Continue(seen + {LStr(node)}, Some(CeilDiv(100 * (|seen + {LStr(node)}| - 1), total)))
  {
    PyEqReflexive(promptId);
    NodeEventReports(promptId, total, seen, map["type" := JStr(kind), "data" := JObj(NodeData(promptId, node))], LStr(node));
  }

  lemma SubStep(promptId: Json, total: int, seen: set<Label>, node: string, value: int, max: int)
    requires total > 0 && max != 0 && node != ""
    ensures var n := |seen + {LStr(node)}|;
      Step(promptId, total, seen, Event("progress", StepData(promptId, node, value, max)))
        == Continue(seen + {LStr(node)}, Some(CeilDiv(100 * (n - 1) * max + 100 * value, total * max)))
  {
    var d := StepData(promptId, node, value, max);
    assert "max" in d && "value" in d && d["value"] == JNum(value) && d["max"] == JNum(max);
    PyEqReflexive(promptId);
    NodeEventReports(promptId, total, seen, map["type" := JStr("progress"), "data" := JObj(d)], LStr(node));
  }

  /** Reported percentages can go down: a full sub-progress report for
      node "3" of a seven-node graph reports 15, and the `executing` event
      for the same node that follows reports 0. */
  lemma ProgressCanRegress(promptId: Json)
    ensures Run(promptId, 7, {}, [
              Event("progress", StepData(promptId, "3", 10, 10)),
              Event("executing", NodeData(promptId, "3"))]).emitted == [15, 0]
  {
    var s := {LStr("3")};
    SubStep(promptId, 7, {}, "3", 10, 10);
    assert {} + {LStr("3")} == s;
    assert CeilDiv(100 * 0 * 10 + 100 * 10, 7 * 10) == 15;
    NodeStep(promptId, 7, s, "executing", "3");
    assert s + {LStr("3")} == s;
    RunTwo(promptId, 7, Event("progress", StepData(promptId, "3", 10, 10)), Event("executing", NodeData(promptId, "3")), s, s, 15, 0);
  }

  /** Two nodes of a five-node graph, the second half-way through its
      steps: 0 after the first, `ceil(100 * 1 / 5 + 20 * 0.5)` = 30 after
      the second. An `executed` event between them is skipped. */
  lemma FiveNodeScenario(promptId: Json)
    ensures Run(promptId, 5, {}, [
              Event("executing", NodeData(promptId, "A")),
              Event("executed", NodeData(promptId, "A")),
              Event("progress", StepData(promptId, "B", 50, 100))]).emitted == [0, 30]
  {
    var first := Event("executing", NodeData(promptId, "A"));
    var last := Event("progress", StepData(promptId, "B", 50, 100));
    ExecutedSkipped(promptId, 5, {}, [first], NodeData(promptId, "A"), [last]);
    assert [first] + [Event("executed", NodeData(promptId, "A"))] + [last]
             == [first, Event("executed", NodeData(promptId, "A")), last];
    assert [first] + [last] == [first, last];
    FiveNodeFirstStep(promptId);
    FiveNodeSecondStep(promptId);
    RunTwo(promptId, 5, first, last, {LStr("A")}, {LStr("A"), LStr("B")}, 0, 30);
  }

  lemma FiveNodeFirstStep(promptId: Json)
    ensures Step(promptId, 5, {}, Event("executing", NodeData(promptId, "A"))) == Continue({LStr("A")}, Some(0))
  {
    NodeStep(promptId, 5, {}, "executing", "A");
    assert {} + {LStr("A")} == {LStr("A")};
  }

  lemma FiveNodeSecondStep(promptId: Json)
    ensures Step(promptId, 5, {LStr("A")}, Event("progress", StepData(promptId, "B", 50, 100)))
              == Continue({LStr("A"), LStr("B")}, Some(30))
  {
    SubStep(promptId, 5, {LStr("A")}, "B", 50, 100);
    TwoLabels();
    assert CeilDiv(100 * 1 * 100 + 100 * 50, 5 * 100) == 30;
  }

  lemma TwoLabels()
    ensures {LStr("A")} + {LStr("B")} == {LStr("A"), LStr("B")}
    ensures |{LStr("A"), LStr("B")}| == 2
  {
    assert "A" != "B" by { assert "A"[0] != "B"[0]; }
  }

  /** An `executed` event, whatever its data, is skipped wherever it
      occurs in the stream. */
  lemma ExecutedSkipped(promptId: Json, total: int, seen: set<Label>, pre: seq<Message>, data: map<string, Json>, post: seq<Message>)
    requires total > 0
    ensures Run(promptId, total, seen, pre + [Event("executed", data)] + post) == Run(promptId, total, seen, pre + post)
  {
    var body := map["type" := JStr("executed"), "data" := JObj(data)];
    assert "executed"[0] != "progress"[0] && "executed"[7] != "executing"[7];
    assert JStr("executed") !in [JStr("executing"), JStr("progress"), JStr("execution_success"), JStr("execution_error")];
    assert Ignored(promptId, body);
    IgnoredInvisible(promptId, total, seen, pre, body, post);
  }
}

=== FILE: pyjson.dfy ===
/** Decoded JSON values as `json.loads` produces them, and the Python
    operators the worker applies to them: truthiness, `key in x`, `x[key]`,
    `==`, hashing into a set, `float(x)` and `str(x)`. JSON numbers are
    integers here. */
module PyJson {
  import opened Results
  import opened Text

  datatype Json =
    | JNull
    | JBool(b: bool)
    | JNum(n: int)
    | JStr(s: string)
    | JArr(items: seq<Json>)
    | JObj(fields: map<string, Json>)

  /** The Python exceptions the modelled code can raise. */
  datatype PyError = TypeError | KeyError | ValueError | ZeroDivisionError | AttributeError

  /** Python truthiness: `None`, `False`, `0`, `""`, `[]` and `{}` are false. */
  predicate Truthy(j: Json) {
    match j
    case JNull => false
    case JBool(b) => b
    case JNum(n) => n != 0
    case JStr(s) => s != ""
    case JArr(xs) => xs != []
    case JObj(m) => m != map[]
  }

  /** `key in container` for a string key: key membership on a dict,
      substring test on a str, element test on a list, TypeError otherwise. */
  function Contains(container: Json, key: string): (r: Result<bool, PyError>)
    ensures r.Ok? <==> container.JObj? || container.JStr? || container.JArr?
    ensures container.JObj? ==> r == Ok(key in container.fields)
  {
    match container
    case JObj(m) => Ok(key in m)
    case JStr(s) => Ok(HasInfix(s, key))
    case JArr(xs) => Ok(JStr(key) in xs)
    case _ => Err(TypeError)
  }

  /** `container[key]` for a string key: only a dict can be indexed by it. */
  function Get(container: Json, key: string): (r: Result<Json, PyError>)
    ensures r.Ok? <==> container.JObj? && key in container.fields
    ensures r.Ok? ==> r.value == container.fields[key]
    ensures container.JObj? && key !in container.fields ==> r == Err(KeyError)
  {
    match container
    case JObj(m) => if key in m then Ok(m[key]) else Err(KeyError)
    case _ => Err(TypeError)
  }

  predicate IsNumeric(j: Json) {
    j.JBool? || j.JNum?
  }

  /** `bool` is a subclass of `int`: `True == 1` and `False == 0`. */
  function NumericValue(j: Json): int
    requires IsNumeric(j)
  {
    if j.JBool? then (if j.b then 1 else 0) else j.n
  }

  /** Python `==` on decoded JSON values. */
  predicate PyEq(a: Json, b: Json) {
    match (a, b)
    case (JNull, JNull) => true
    case (JStr(x), JStr(y)) => x == y
    case (JArr(xs), JArr(ys)) => |xs| == |ys| && forall i :: 0 <= i < |xs| ==> PyEq(xs[i], ys[i])
    case (JObj(m), JObj(n)) => m.Keys == n.Keys && forall k :: k in m ==> PyEq(m[k], n[k])
    case _ => IsNumeric(a) && IsNumeric(b) && NumericValue(a) == NumericValue(b)
  }

  lemma {:induction false} PyEqReflexive(a: Json)
    ensures PyEq(a, a)
  {
    match a
    case JArr(xs) =>
      forall i | 0 <= i < |xs| ensures PyEq(xs[i], xs[i]) {
        PyEqReflexive(xs[i]);
      }
    case JObj(m) =>
      forall k | k in m ensures PyEq(m[k], m[k]) {
        PyEqReflexive(m[k]);
      }
    case _ =>
  }

  /** A hashable value as an element of a Python set: equal values
      (`True` and `1`) are one element. */
  datatype Label = LNone | LNum(n: int) | LStr(s: string)

  /** Adding `j` to a set: lists and dicts are unhashable. */
  function LabelOf(j: Json): (r: Result<Label, PyError>)
    ensures r.Ok? <==> !(j.JArr? || j.JObj?)
  {
    match j
    case JNull => Ok(LNone)
    case JBool(b) => Ok(LNum(if b then 1 else 0))
    case JNum(n) => Ok(LNum(n))
    case JStr(s) => Ok(LStr(s))
    case _ => Err(TypeError)
  }

  /** Two hashable values are the same set element exactly when Python
      considers them equal. */
  lemma LabelOfMatchesEquality(a: Json, b: Json)
    requires LabelOf(a).Ok? && LabelOf(b).Ok?
    ensures LabelOf(a) == LabelOf(b) <==> PyEq(a, b)
  {
  }

  /** `float(j)` restricted to integral values: numbers and booleans convert,
      a string converts when `int()` accepts it. */
  function ToFloat(j: Json): (r: Result<int, PyError>)
    ensures IsNumeric(j) ==> r == Ok(NumericValue(j))
    ensures r.Err? ==> (r.error == TypeError <==> !(IsNumeric(j) || j.JStr?))
  {
    match j
    case JBool(b) => Ok(if b then 1 else 0)
    case JNum(n) => Ok(n)
    case JStr(s) => (match ParseInt(s) case Some(v) => Ok(v) case None => Err(ValueError))
    case _ => Err(TypeError)
  }

  /** `str(j)` for scalar values; `None` stands for a list or dict, whose
      Python rendering is not modelled. */
  function Display(j: Json): Option<string>
  {
    match j
    case JNull => Some("None")
    case JBool(b) => Some(if b then "True" else "False")
    case JNum(n) => Some(IntToString(n))
    case JStr(s) => Some(s)
    case _ => None
  }
}

=== FILE: results.dfy ===
/** Failure-compatible result types shared by every module of the model.
    Python exceptions raised by the worker become `Err` values; `:-` plays
    the part of exception propagation. */
module Results {

  datatype Option<+T> = None | Some(value: T)

  datatype Result<+T, +E> = Ok(value: T) | Err(error: E) {

    predicate IsFailure() {
      Err?
    }

    function PropagateFailure<U>(): Result<U, E>
      requires Err?
    {
      Err(error)
    }

    function Extract(): T
      requires Ok?
    {
      value
    }
  }
}

=== FILE: stable_diffusion.dfy ===
/** The standard Stable Diffusion graph: `build_workflow_loader` captures a
    checkpoint, a negative prompt, a maximum size and the sampler settings,
    and the loader it returns builds the seven-node generation graph for one
    job. */
module StableDiffusion {
  import opened Results
  import opened PyJson
  import Dimensions

  /** A numeric constant of a workflow module: a Python int, or a float
      written as digits and a decimal scale (1.5 is `Fixed(15, 1)`). */
  datatype Number = Int(i: int) | Fixed(digits: int, scale: nat)

  /** One input of a node: a link `[node id, output slot]` or a literal. */
  datatype Input =
    | Link(node: string, slot: nat)
    | Num(n: Number)
    | Str(s: string)
    | Prompt(text: Json)

  datatype Node = Node(classType: string, inputs: map<string, Input>)

  /** The graph payload, keyed by node id. */
  type Graph = map<string, Node>

  /** The constants the returned `load` closure captures. */
  datatype Loader = Loader(
    checkpoint: string,
    negativePrompt: string,
    maxSize: int,
    steps: int,
    cfg: Number,
    sampler: string,
    scheduler: string,
    denoise: Number)

  /** `build_workflow_loader`, with the source's keyword defaults. */
  function BuildWorkflowLoader(
    checkpoint: string,
    negativePrompt: string,
    maxSize: int,
    steps: int,
    cfg: Number,
    sampler: string := "euler",
    scheduler: string := "normal",
    denoise: Number := Int(1)): (l: Loader)
    ensures l.checkpoint == checkpoint && l.negativePrompt == negativePrompt && l.maxSize == maxSize
    ensures l.steps == steps && l.cfg == cfg
    ensures l.sampler == sampler && l.scheduler == scheduler && l.denoise == denoise
  {
    Loader(checkpoint, negativePrompt, maxSize, steps, cfg, sampler, scheduler, denoise)
  }

  /** Bounds of `random.randint(10**14, 10**15 - 1)`, both inclusive. */
  const MinSeed: int := 100_000_000_000_000
  const MaxSeed: int := 999_999_999_999_999

  const NodeIds: set<string> := {"3", "4", "5", "6", "7", "8", "9"}

  lemma NodeCount()
    ensures |NodeIds| == 7
  {
  }

  /** A layering of the node ids: every link of the graph points to a node
      on a strictly lower layer. */
  const Layers: map<string, nat> := map["4" := 0, "5" := 0, "6" := 1, "7" := 1, "3" := 2, "8" := 3, "9" := 4]

  /** Every link names a node of the graph. */
  ghost predicate LinksClosed(g: Graph) {
    forall id, name :: id in g && name in g[id].inputs && g[id].inputs[name].Link? ==>
      g[id].inputs[name].node in g
  }

  /** Every link descends the layering, so the links form no cycle. */
  ghost predicate Layered(g: Graph, layers: map<string, nat>) {
    && g.Keys <= layers.Keys
    && forall id, name :: id in g && name in g[id].inputs && g[id].inputs[name].Link? ==>
         var target := g[id].inputs[name].node;
         target in layers && layers[target] < layers[id]
  }

  /** Every link of `node` points to a node on a layer below `layer`. */
  ghost predicate LinksBelow(node: Node, layer: nat) {
    forall name :: name in node.inputs && node.inputs[name].Link? ==>
      node.inputs[name].node in Layers && Layers[node.inputs[name].node] < layer
  }

  function KSampler(loader: Loader, seed: int): (n: Node)
    ensures LinksBelow(n, Layers["3"])
  {
    Node("KSampler", map[
      "model" := Link("4", 0),
      "positive" := Link("6", 0),
      "negative" := Link("7", 0),
      "latent_image" := Link("5", 0),
      "seed" := Num(Int(seed)),
      "steps" := Num(Int(loader.steps)),
      "cfg" := Num(loader.cfg),
      "sampler_name" := Str(loader.sampler),
      "scheduler" := Str(loader.scheduler),
      "denoise" := Num(loader.denoise)])
  }

  function CheckpointLoader(loader: Loader): (n: Node)
    ensures LinksBelow(n, Layers["4"])
  {
    Node("CheckpointLoaderSimple", map["ckpt_name" := Str(loader.checkpoint)])
  }

  function EmptyLatentImage(width: int, height: int): (n: Node)
    ensures LinksBelow(n, Layers["5"])
  {
    Node("EmptyLatentImage", map[
      "width" := Num(Int(width)),
      "height" := Num(Int(height)),
      "batch_size" := Num(Int(1))])
  }

  function TextEncode(text: Input): (n: Node)
    requires !text.Link?
    ensures LinksBelow(n, Layers["6"]) && LinksBelow(n, Layers["7"])
  {
    Node("CLIPTextEncode", map["clip" := Link("4", 1), "text" := text])
  }

  function VaeDecode(): (n: Node)
    ensures LinksBelow(n, Layers["8"])
  {
    Node("VAEDecode", map["samples" := Link("3", 0), "vae" := Link("4", 2)])
  }

  function SaveImage(savePrefix: string): (n: Node)
    ensures LinksBelow(n, Layers["9"])
  {
    Node("SaveImage", map["images" := Link("8", 0), "filename_prefix" := Str(savePrefix)])
  }

  /** The per-job values `load` puts into the graph. */
  datatype JobInputs = JobInputs(positivePrompt: Json, width: int, height: int, savePrefix: string, seed: int)

  /** The node `load` writes under `id`. */
  function NodeOf(loader: Loader, job: JobInputs, id: string): Node
  {
    if id == "3" then KSampler(loader, job.seed)
    else if id == "4" then CheckpointLoader(loader)
    else if id == "5" then EmptyLatentImage(job.width, job.height)
    else if id == "6" then TextEncode(Prompt(job.positivePrompt))
    else if id == "7" then TextEncode(Str(loader.negativePrompt))
    else if id == "8" then VaeDecode()
    else SaveImage(job.savePrefix)
  }

  /** The graph `load` builds once its inputs are settled. */
  function Assemble(loader: Loader, job: JobInputs): (g: Graph)
    ensures g.Keys == NodeIds
  {
    map id | id in NodeIds :: NodeOf(loader, job, id)
  }

  lemma NodeLinksBelow(loader: Loader, job: JobInputs, id: string)
    requires id in NodeIds
    ensures id in Layers && LinksBelow(NodeOf(loader, job, id), Layers[id])
  {
    var n := NodeOf(loader, job, id);
    if id == "3" {
      assert LinksBelow(KSampler(loader, job.seed), Layers["3"]);
    } else if id == "4" {
      assert LinksBelow(CheckpointLoader(loader), Layers["4"]);
    } else if id == "5" {
      assert LinksBelow(EmptyLatentImage(job.width, job.height), Layers["5"]);
    } else if id == "6" {
      assert LinksBelow(TextEncode(Prompt(job.positivePrompt)), Layers["6"]);
    } else if id == "7" {
      assert LinksBelow(TextEncode(Str(loader.negativePrompt)), Layers["7"]);
    } else if id == "8" {
      assert LinksBelow(VaeDecode(), Layers["8"]);
    } else {
      assert id == "9";
      assert LinksBelow(SaveImage(job.savePrefix), Layers["9"]);
    }
  }

  lemma AssembleWellLinked(loader: Loader, job: JobInputs)
    ensures LinksClosed(Assemble(loader, job)) && Layered(Assemble(loader, job), Layers)
  {
    var g := Assemble(loader, job);
    forall id | id in g
      ensures id in Layers && LinksBelow(g[id], Layers[id])
    {
      NodeLinksBelow(loader, job, id);
    }
    assert Layers.Keys == g.Keys;
  }

  /** The `filename_prefix` the SaveImage node receives. */
  function SavePrefix(filenamePrefix: string, jobId: string): string
  {
    filenamePrefix + "_" + jobId
  }

  /** `load(positive_prompt, aspect_ratio, job_id, filename_prefix)` with the
      random seed passed in. An aspect ratio that is not a string has no
      `replace` method. */
  function Load(loader: Loader, positivePrompt: Json, aspectRatio: Json, jobId: string, filenamePrefix: string, seed: int): (r: Result<Graph, PyError>)
    requires MinSeed <= seed <= MaxSeed
    ensures r.Ok? <==> aspectRatio.JStr? && Dimensions.CalculateDimensions(loader.maxSize, aspectRatio.s).Ok?
    ensures !aspectRatio.JStr? ==> r == Err(AttributeError)
    ensures aspectRatio.JStr? && Dimensions.CalculateDimensions(loader.maxSize, aspectRatio.s).Err? ==>
              r == Err(Dimensions.CalculateDimensions(loader.maxSize, aspectRatio.s).error)
    ensures r.Ok? ==> r.value.Keys == NodeIds
    ensures r.Ok? ==> LinksClosed(r.value) && Layered(r.value, Layers)
  {
    var savePrefix := SavePrefix(filenamePrefix, jobId);
    if !aspectRatio.JStr? then Err(AttributeError)
    else
      var dims :- Dimensions.CalculateDimensions(loader.maxSize, aspectRatio.s);
      var job := JobInputs(positivePrompt, dims.0, dims.1, savePrefix, seed);
      AssembleWellLinked(loader, job);
      Ok(Assemble(loader, job))
  }

  /** A successful load is the assembled graph of the dimensions the
      aspect ratio yields. */
  lemma LoadAssembles(loader: Loader, positivePrompt: Json, aspect: string, jobId: string, filenamePrefix: string, seed: int)
    requires MinSeed <= seed <= MaxSeed
    requires Load(loader, positivePrompt, JStr(aspect), jobId, filenamePrefix, seed).Ok?
    ensures var dims := Dimensions.CalculateDimensions(loader.maxSize, aspect).value;
      Load(loader, positivePrompt, JStr(aspect), jobId, filenamePrefix, seed).value
        == Assemble(loader, JobInputs(positivePrompt, dims.0, dims.1, SavePrefix(filenamePrefix, jobId), seed))
  {
  }

  /** `graph[id]["inputs"][name]`, or `None` when either key is absent. */
  function InputAt(g: Graph, id: string, name: string): Option<Input>
  {
    if id in g && name in g[id].inputs then Some(g[id].inputs[name]) else None
  }

  /** Node "6" holds the job's prompt, node "7" the loader's negative
      prompt and node "4" the loader's checkpoint. */
  lemma LoadPlacesPrompts(loader: Loader, positivePrompt: Json, aspect: string, jobId: string, filenamePrefix: string, seed: int)
    requires MinSeed <= seed <= MaxSeed
    requires Load(loader, positivePrompt, JStr(aspect), jobId, filenamePrefix, seed).Ok?
    ensures var g := Load(loader, positivePrompt, JStr(aspect), jobId, filenamePrefix, seed).value;
      && InputAt(g, "6", "text") == Some(Prompt(positivePrompt))
      && InputAt(g, "7", "text") == Some(Str(loader.negativePrompt))
      && InputAt(g, "4", "ckpt_name") == Some(Str(loader.checkpoint))
  {
    LoadAssembles(loader, positivePrompt, aspect, jobId, filenamePrefix, seed);
    var dims := Dimensions.CalculateDimensions(loader.maxSize, aspect).value;
    PromptInputs(loader, JobInputs(positivePrompt, dims.0, dims.1, SavePrefix(filenamePrefix, jobId), seed));
  }

  /** Node "5" carries the dimensions `calculate_dimensions` gives for the
      loader's maximum size, and a batch of one. */
  lemma LoadPlacesDimensions(loader: Loader, positivePrompt: Json, aspect: string, jobId: string, filenamePrefix: string, seed: int)
    requires MinSeed <= seed <= MaxSeed
    requires Load(loader, positivePrompt, JStr(aspect), jobId, filenamePrefix, seed).Ok?
    ensures var g := Load(loader, positivePrompt, JStr(aspect), jobId, filenamePrefix, seed).value;
      var dims := Dimensions.CalculateDimensions(loader.maxSize, aspect).value;
      && InputAt(g, "5", "width") == Some(Num(Int(dims.0)))
      && InputAt(g, "5", "height") == Some(Num(Int(dims.1)))
      && InputAt(g, "5", "batch_size") == Some(Num(Int(1)))
  {
    LoadAssembles(loader, positivePrompt, aspect, jobId, filenamePrefix, seed);
    var dims := Dimensions.CalculateDimensions(loader.maxSize, aspect).value;
    LatentInputs(loader, JobInputs(positivePrompt, dims.0, dims.1, SavePrefix(filenamePrefix, jobId), seed));
  }

  /** The KSampler carries the drawn seed, inside the `randint` range, and
      the loader's steps, cfg, sampler, scheduler and denoise. */
  lemma LoadPlacesSampler(loader: Loader, positivePrompt: Json, aspect: string, jobId: string, filenamePrefix: string, seed: int)
    requires MinSeed <= seed <= MaxSeed
    requires Load(loader, positivePrompt, JStr(aspect), jobId, filenamePrefix, seed).Ok?
    ensures var g := Load(loader, positivePrompt, JStr(aspect), jobId, filenamePrefix, seed).value;
      && InputAt(g, "3", "seed") == Some(Num(Int(seed)))
      && InputAt(g, "3", "steps") == Some(Num(Int(loader.steps)))
      && InputAt(g, "3", "cfg") == Some(Num(loader.cfg))
      && InputAt(g, "3", "sampler_name") == Some(Str(loader.sampler))
      && InputAt(g, "3", "scheduler") == Some(Str(loader.scheduler))
      && InputAt(g, "3", "denoise") == Some(Num(loader.denoise))
  {
    LoadAssembles(loader, positivePrompt, aspect, jobId, filenamePrefix, seed);
    KSamplerSettings(loader, seed);
  }

  /** The SaveImage node's prefix is `filename_prefix + "_" + job_id`. */
  lemma LoadPlacesSavePrefix(loader: Loader, positivePrompt: Json, aspect: string, jobId: string, filenamePrefix: string, seed: int)
    requires MinSeed <= seed <= MaxSeed
    requires Load(loader, positivePrompt, JStr(aspect), jobId, filenamePrefix, seed).Ok?
    ensures InputAt(Load(loader, positivePrompt, JStr(aspect), jobId, filenamePrefix, seed).value, "9", "filename_prefix")
              == Some(Str(filenamePrefix + "_" + jobId))
  {
    LoadAssembles(loader, positivePrompt, aspect, jobId, filenamePrefix, seed);
    var dims := Dimensions.CalculateDimensions(loader.maxSize, aspect).value;
    SaveInputs(loader, JobInputs(positivePrompt, dims.0, dims.1, SavePrefix(filenamePrefix, jobId), seed));
  }

  /** The `load` closure `build_workflow_loader` returns bakes its
      settings into every graph it builds: the checkpoint in node 4, the
      negative prompt in node 7, the sampler settings in node 3 and the
      dimensions computed from its maximum size in node 5. */
  lemma BuiltLoaderGraphs(checkpoint: string, negativePrompt: string, maxSize: int, steps: int, cfg: Number,
                          sampler: string, scheduler: string, denoise: Number,
                          positivePrompt: Json, aspect: string, jobId: string, filenamePrefix: string, seed: int)
    requires MinSeed <= seed <= MaxSeed
    requires var l := BuildWorkflowLoader(checkpoint, negativePrompt, maxSize, steps, cfg, sampler, scheduler, denoise);
      Load(l, positivePrompt, JStr(aspect), jobId, filenamePrefix, seed).Ok?
    ensures var l := BuildWorkflowLoader(checkpoint, negativePrompt, maxSize, steps, cfg, sampler, scheduler, denoise);
      var g := Load(l, positivePrompt, JStr(aspect), jobId, filenamePrefix, seed).value;
      var dims := Dimensions.CalculateDimensions(maxSize, aspect).value;
      && InputAt(g, "4", "ckpt_name") == Some(Str(checkpoint))
      && InputAt(g, "7", "text") == Some(Str(negativePrompt))
      && InputAt(g, "3", "steps") == Some(Num(Int(steps)))
      && InputAt(g, "3", "cfg") == Some(Num(cfg))
      && InputAt(g, "3", "sampler_name") == Some(Str(sampler))
      && InputAt(g, "3", "scheduler") == Some(Str(scheduler))
      && InputAt(g, "3", "denoise") == Some(Num(denoise))
      && InputAt(g, "5", "width") == Some(Num(Int(dims.0)))
      && InputAt(g, "5", "height") == Some(Num(Int(dims.1)))
  {
    var l := BuildWorkflowLoader(checkpoint, negativePrompt, maxSize, steps, cfg, sampler, scheduler, denoise);
    LoadPlacesPrompts(l, positivePrompt, aspect, jobId, filenamePrefix, seed);
    LoadPlacesSampler(l, positivePrompt, aspect, jobId, filenamePrefix, seed);
    LoadPlacesDimensions(l, positivePrompt, aspect, jobId, filenamePrefix, seed);
  }

  /** A loader built with only the five required settings samples with
      `euler` on the `normal` schedule at full denoise, in every graph it
      builds. */
  lemma LoaderDefaults(checkpoint: string, negativePrompt: string, maxSize: int, steps: int, cfg: Number,
                       positivePrompt: Json, aspect: string, jobId: string, filenamePrefix: string, seed: int)
    requires MinSeed <= seed <= MaxSeed
    ensures var l := BuildWorkflowLoader(checkpoint, negativePrompt, maxSize, steps, cfg);
      l.sampler == "euler" && l.scheduler == "normal" && l.denoise == Int(1)
    ensures var l := BuildWorkflowLoader(checkpoint, negativePrompt, maxSize, steps, cfg);
      Load(l, positivePrompt, JStr(aspect), jobId, filenamePrefix, seed).Ok? ==>
        var g := Load(l, positivePrompt, JStr(aspect), jobId, filenamePrefix, seed).value;
        && InputAt(g, "3", "sampler_name") == Some(Str("euler"))
        && InputAt(g, "3", "scheduler") == Some(Str("normal"))
        && InputAt(g, "3", "denoise") == Some(Num(Int(1)))
  {
    var l := BuildWorkflowLoader(checkpoint, negativePrompt, maxSize, steps, cfg);
    if Load(l, positivePrompt, JStr(aspect), jobId, filenamePrefix, seed).Ok? {
      LoadPlacesSampler(l, positivePrompt, aspect, jobId, filenamePrefix, seed);
    }
  }

  lemma PromptInputs(loader: Loader, job: JobInputs)
    ensures var g := Assemble(loader, job);
      && InputAt(g, "4", "ckpt_name") == Some(Str(loader.checkpoint))
      && InputAt(g, "6", "text") == Some(Prompt(job.positivePrompt))
      && InputAt(g, "7", "text") == Some(Str(loader.negativePrompt))
  {
    AssembleNode(loader, job, "4");
    AssembleNode(loader, job, "6");
    AssembleNode(loader, job, "7");
  }

  lemma LatentInputs(loader: Loader, job: JobInputs)
    ensures var g := Assemble(loader, job);
      && InputAt(g, "5", "width") == Some(Num(Int(job.width)))
      && InputAt(g, "5", "height") == Some(Num(Int(job.height)))
      && InputAt(g, "5", "batch_size") == Some(Num(Int(1)))
  {
    AssembleNode(loader, job, "5");
  }

  lemma SaveInputs(loader: Loader, job: JobInputs)
    ensures InputAt(Assemble(loader, job), "9", "filename_prefix") == Some(Str(job.savePrefix))
  {
    AssembleNode(loader, job, "9");
  }

  lemma AssembleNode(loader: Loader, job: JobInputs, id: string)
    requires id in NodeIds
    ensures id in Assemble(loader, job)
    ensures var n := Assemble(loader, job)[id];
      && (id == "4" ==> n == CheckpointLoader(loader))
      && (id == "5" ==> n == EmptyLatentImage(job.width, job.height))
      && (id == "6" ==> n == TextEncode(Prompt(job.positivePrompt)))
      && (id == "7" ==> n == TextEncode(Str(loader.negativePrompt)))
      && (id == "9" ==> n == SaveImage(job.savePrefix))
  {
  }

  lemma KSamplerSettings(loader: Loader, seed: int)
    ensures var k := KSampler(loader, seed).inputs;
      && k["seed"] == Num(Int(seed))
      && k["steps"] == Num(Int(loader.steps))
      && k["cfg"] == Num(loader.cfg)
      && k["sampler_name"] == Str(loader.sampler)
      && k["scheduler"] == Str(loader.scheduler)
      && k["denoise"] == Num(loader.denoise)
  {
  }

  /** The graph with the KSampler's seed replaced. */
  function WithSeed(g: Graph, seed: int): Graph
    requires "3" in g
  {
    g["3" := g["3"].(inputs := g["3"].inputs["seed" := Num(Int(seed))])]
  }

  lemma KSamplerWithSeed(loader: Loader, seed1: int, seed2: int)
    ensures var k := KSampler(loader, seed1);
      k.(inputs := k.inputs["seed" := Num(Int(seed2))]) == KSampler(loader, seed2)
  {
    var k1 := KSampler(loader, seed1);
    var k2 := KSampler(loader, seed2);
    assert k1.inputs["seed" := Num(Int(seed2))] == k2.inputs;
  }

  lemma NodeOfIgnoresSeed(loader: Loader, job: JobInputs, id: string, seed: int)
    requires id != "3"
    ensures NodeOf(loader, job, id) == NodeOf(loader, job.(seed := seed), id)
  {
  }

  lemma AssembleWithSeed(loader: Loader, job: JobInputs, seed: int)
    ensures WithSeed(Assemble(loader, job), seed) == Assemble(loader, job.(seed := seed))
  {
    var job2 := job.(seed := seed);
    var g1 := Assemble(loader, job);
    var g2 := Assemble(loader, job2);
    var w := WithSeed(g1, seed);
    forall id | id in g2
      ensures w[id] == g2[id]
    {
      if id == "3" {
        assert g1["3"] == KSampler(loader, job.seed);
        assert g2["3"] == KSampler(loader, seed);
        KSamplerWithSeed(loader, job.seed, seed);
      } else {
        assert w[id] == g1[id];
        assert g1[id] == NodeOf(loader, job, id) && g2[id] == NodeOf(loader, job2, id);
        NodeOfIgnoresSeed(loader, job, id, seed);
      }
    }
    assert w.Keys == g2.Keys;
  }

  /** Two loads with equal arguments differ at most in the seed. */
  lemma LoadsDifferOnlyInSeed(loader: Loader, positivePrompt: Json, aspectRatio: Json, jobId: string, filenamePrefix: string, seed1: int, seed2: int)
    requires MinSeed <= seed1 <= MaxSeed && MinSeed <= seed2 <= MaxSeed
    ensures var r1 := Load(loader, positivePrompt, aspectRatio, jobId, filenamePrefix, seed1);
      var r2 := Load(loader, positivePrompt, aspectRatio, jobId, filenamePrefix, seed2);
      && r1.Ok? == r2.Ok?
      && (r1.Ok? ==> r2.value == WithSeed(r1.value, seed2))
      && (r1.Err? ==> r1 == r2)
  {
    var r1 := Load(loader, positivePrompt, aspectRatio, jobId, filenamePrefix, seed1);
    if r1.Ok? {
      var dims := Dimensions.CalculateDimensions(loader.maxSize, aspectRatio.s).value;
      LoadAssembles(loader, positivePrompt, aspectRatio.s, jobId, filenamePrefix, seed1);
      LoadAssembles(loader, positivePrompt, aspectRatio.s, jobId, filenamePrefix, seed2);
      AssembleWithSeed(loader, JobInputs(positivePrompt, dims.0, dims.1, SavePrefix(filenamePrefix, jobId), seed1), seed2);
    }
  }

  /** The graph with the SaveImage node's prefix replaced. */
  function WithSavePrefix(g: Graph, savePrefix: string): Graph
    requires "9" in g
  {
    g["9" := g["9"].(inputs := g["9"].inputs["filename_prefix" := Str(savePrefix)])]
  }

  lemma SaveImageWithPrefix(prefix1: string, prefix2: string)
    ensures var n := SaveImage(prefix1);
      n.(inputs := n.inputs["filename_prefix" := Str(prefix2)]) == SaveImage(prefix2)
  {
    var n1 := SaveImage(prefix1);
    var n2 := SaveImage(prefix2);
    assert n1.inputs["filename_prefix" := Str(prefix2)] == n2.inputs;
  }

  lemma NodeOfIgnoresSavePrefix(loader: Loader, job: JobInputs, id: string, savePrefix: string)
    requires id in NodeIds && id != "9"
    ensures NodeOf(loader, job, id) == NodeOf(loader, job.(savePrefix := savePrefix), id)
  {
  }

  lemma SavePrefixOfNode9(loader: Loader, job: JobInputs, savePrefix: string)
    ensures WithSavePrefix(Assemble(loader, job), savePrefix)["9"] == Assemble(loader, job.(savePrefix := savePrefix))["9"]
  {
    assert Assemble(loader, job)["9"] == SaveImage(job.savePrefix);
    assert Assemble(loader, job.(savePrefix := savePrefix))["9"] == SaveImage(savePrefix);
    SaveImageWithPrefix(job.savePrefix, savePrefix);
  }

  lemma SavePrefixNodewise(loader: Loader, job: JobInputs, savePrefix: string, id: string)
    requires id in NodeIds
    ensures WithSavePrefix(Assemble(loader, job), savePrefix)[id] == Assemble(loader, job.(savePrefix := savePrefix))[id]
  {
    if id == "9" {
      SavePrefixOfNode9(loader, job, savePrefix);
    } else {
      var job2 := job.(savePrefix := savePrefix);
      var g1 := Assemble(loader, job);
      assert WithSavePrefix(g1, savePrefix)[id] == g1[id];
      assert g1[id] == NodeOf(loader, job, id) && Assemble(loader, job2)[id] == NodeOf(loader, job2, id);
      NodeOfIgnoresSavePrefix(loader, job, id, savePrefix);
    }
  }

  lemma AssembleWithSavePrefix(loader: Loader, job: JobInputs, savePrefix: string)
    ensures WithSavePrefix(Assemble(loader, job), savePrefix) == Assemble(loader, job.(savePrefix := savePrefix))
  {
    var g2 := Assemble(loader, job.(savePrefix := savePrefix));
    var w := WithSavePrefix(Assemble(loader, job), savePrefix);
    forall id | id in g2
      ensures w[id] == g2[id]
    {
      SavePrefixNodewise(loader, job, savePrefix, id);
    }
    assert w.Keys == g2.Keys;
  }

  /** The job id reaches the graph only through the SaveImage prefix: two
      loads for different jobs both succeed or fail alike, and their
      graphs differ at most in node 9's `filename_prefix`. */
  lemma LoadsDifferOnlyInJobId(loader: Loader, positivePrompt: Json, aspectRatio: Json, job1: string, job2: string, filenamePrefix: string, seed: int)
    requires MinSeed <= seed <= MaxSeed
    ensures var r1 := Load(loader, positivePrompt, aspectRatio, job1, filenamePrefix, seed);
      var r2 := Load(loader, positivePrompt, aspectRatio, job2, filenamePrefix, seed);
      && r1.Ok? == r2.Ok?
      && (r1.Ok? ==> r2.value == WithSavePrefix(r1.value, filenamePrefix + "_" + job2))
      && (r1.Err? ==> r1 == r2)
  {
    var r1 := Load(loader, positivePrompt, aspectRatio, job1, filenamePrefix, seed);
    if r1.Ok? {
      var dims := Dimensions.CalculateDimensions(loader.maxSize, aspectRatio.s).value;
      LoadAssembles(loader, positivePrompt, aspectRatio.s, job1, filenamePrefix, seed);
      LoadAssembles(loader, positivePrompt, aspectRatio.s, job2, filenamePrefix, seed);
      AssembleWithSavePrefix(loader, JobInputs(positivePrompt, dims.0, dims.1, SavePrefix(filenamePrefix, job1), seed),
                             SavePrefix(filenamePrefix, job2));
    }
  }
}

=== FILE: submission.dfy ===
/** The checks `queue_prompt` applies to the engine's answer to a
    submitted graph, in the order the source performs them. */
module Submission {
  import opened Results
  import opened PyJson
  import Text

  /** Why a submission is refused: the three `raise` statements of the
      check, or a Python error raised while evaluating it. */
  datatype Rejection = EmptyResponse | MissingPromptId | EngineError(detail: Json) | Raised(cause: PyError)

  /** The decoded response body to the prompt id it carries. */
  function CheckResponse(response: Json): (r: Result<Json, Rejection>)
    ensures r.Ok? <==> response.JObj? && "prompt_id" in response.fields && "error" !in response.fields
    ensures r.Ok? ==> r.value == response.fields["prompt_id"]
    ensures !Truthy(response) ==> r == Err(EmptyResponse)
    ensures response.JObj? && Truthy(response) && "prompt_id" !in response.fields ==> r == Err(MissingPromptId)
    ensures response.JObj? && "prompt_id" in response.fields && "error" in response.fields ==>
              r == Err(EngineError(response.fields["error"]))
  {
    if !Truthy(response) then Err(EmptyResponse)
    else match Contains(response, "prompt_id")
      case Err(e) => Err(Raised(e))
      case Ok(hasId) =>
        if !hasId then Err(MissingPromptId)
        else match Contains(response, "error")
          case Err(e) => Err(Raised(e))
          case Ok(hasError) =>
            if hasError then
              match Get(response, "error")
              case Ok(detail) => Err(EngineError(detail))
              case Err(e) => Err(Raised(e))
            else
              match Get(response, "prompt_id")
              case Ok(id) => Ok(id)
              case Err(e) => Err(Raised(e))
  }

  /** An `error` key refuses the submission even when a prompt id is
      present, and a response that is not a dict never yields an id. */
  lemma ErrorOverridesPromptId(fields: map<string, Json>, id: Json, detail: Json)
    ensures CheckResponse(JObj(fields["prompt_id" := id]["error" := detail])) == Err(EngineError(detail))
    ensures CheckResponse(JObj(fields["prompt_id" := id])).Ok? <==> "error" !in fields
  {
  }

  /** Text and list answers: a string mentioning both words is indexed
      like a dict and raises `TypeError`; anything else that is not a
      dict is refused without yielding an id. */
  lemma NonDictResponses(response: Json)
    requires !response.JObj?
    ensures CheckResponse(response).Err?
    ensures response.JNum? && response.n != 0 ==> CheckResponse(response) == Err(Raised(TypeError))
    ensures response.JStr? && !Text.HasInfix(response.s, "prompt_id") && response.s != "" ==>
              CheckResponse(response) == Err(MissingPromptId)
  {
  }
}

=== FILE: text.dfy ===
/** The string operations of Python's `str` that the worker relies on:
    character replacement, `split` on one separator, `join`, `strip`,
    `int()` parsing, `str()` of an integer and substring membership. */
module Text {
  import opened Results

  /** The ASCII characters `str.strip()` and `int()` treat as whitespace:
      space, tab to carriage return, and the file, group, record and unit
      separators. */
  predicate IsSpace(c: char) {
    c == ' ' || '\t' <= c <= '\r' || '\U{1c}' <= c <= '\U{1f}'
  }

  predicate IsDigit(c: char) {
    '0' <= c <= '9'
  }

  predicate AllDigits(s: string) {
    forall i :: 0 <= i < |s| ==> IsDigit(s[i])
  }

  function DigitValue(c: char): nat
    requires IsDigit(c)
  {
    c as int - '0' as int
  }

  function DigitChar(d: nat): (c: char)
    requires d < 10
    ensures IsDigit(c) && DigitValue(c) == d
  {
    ('0' as int + d) as char
  }

  /** `s.replace(from, to)` for one-character arguments. */
  function Replace(s: string, from: char, to: char): (r: string)
    ensures |r| == |s|
    ensures forall i :: 0 <= i < |s| ==> r[i] == (if s[i] == from then to else s[i])
    ensures from != to ==> from !in r
  {
    if s == [] then [] else [if s[0] == from then to else s[0]] + Replace(s[1..], from, to)
  }

  /** Number of occurrences of `c` in `s`. */
  function Count(s: string, c: char): nat
  {
    if s == [] then 0 else (if s[0] == c then 1 else 0) + Count(s[1..], c)
  }

  lemma {:induction false} CountZero(s: string, c: char)
    ensures Count(s, c) == 0 <==> c !in s
  {
    if s != [] {
      CountZero(s[1..], c);
      assert s == [s[0]] + s[1..];
    }
  }

  /** `sep.join(parts)`. */
  function Join(parts: seq<string>, sep: string): string
  {
    if |parts| == 0 then ""
    else if |parts| == 1 then parts[0]
    else parts[0] + sep + Join(parts[1..], sep)
  }

  /** `Join` seen from its first part. */
  lemma JoinHead(parts: seq<string>, sep: string)
    requires |parts| >= 1
    ensures Join(parts, sep) == parts[0] + (if |parts| == 1 then "" else sep + Join(parts[1..], sep))
  {
  }

  /** `s.split(sep)` for a one-character separator: every occurrence cuts,
      and empty pieces are kept. */
  function Split(s: string, sep: char): (parts: seq<string>)
    ensures |parts| == Count(s, sep) + 1
    ensures forall i :: 0 <= i < |parts| ==> sep !in parts[i]
    ensures Join(parts, [sep]) == s
  {
    if s == [] then [""]
    else
      var rest := Split(s[1..], sep);
      assert s == [s[0]] + s[1..];
      if s[0] == sep then
        var parts := [""] + rest;
        assert parts[1..] == rest;
        JoinHead(parts, [sep]);
        parts
      else
        var parts := [[s[0]] + rest[0]] + rest[1..];
        assert parts[1..] == rest[1..];
        JoinHead(parts, [sep]);
        JoinHead(rest, [sep]);
        parts
  }

  lemma {:induction false} SplitWithoutSeparator(s: string, sep: char)
    requires sep !in s
    ensures Split(s, sep) == [s]
  {
    CountZero(s, sep);
    var parts := Split(s, sep);
    assert |parts| == 1;
  }

  /** A string with exactly one separator splits into the two sides. */
  lemma {:induction false} SplitAtSeparator(a: string, b: string, sep: char)
    requires sep !in a && sep !in b
    ensures Split(a + [sep] + b, sep) == [a, b]
  {
    var s := a + [sep] + b;
    if a == [] {
      assert s[1..] == b;
      SplitWithoutSeparator(b, sep);
    } else {
      assert s[1..] == a[1..] + [sep] + b;
      SplitAtSeparator(a[1..], b, sep);
      assert [a[0]] + a[1..] == a;
    }
  }

  function TrimStart(s: string): (r: string)
    ensures |r| <= |s|
  {
    if |s| > 0 && IsSpace(s[0]) then TrimStart(s[1..]) else s
  }

  function TrimEnd(s: string): (r: string)
    ensures |r| <= |s|
  {
    if |s| > 0 && IsSpace(s[|s| - 1]) then TrimEnd(s[..|s| - 1]) else s
  }

  /** `s.strip()`. */
  function Strip(s: string): string
  {
    TrimEnd(TrimStart(s))
  }

  lemma StripKeepsTrimmed(s: string)
    requires |s| > 0 && !IsSpace(s[0]) && !IsSpace(s[|s| - 1])
    ensures Strip(s) == s
  {
  }

  /** Value of a non-empty run of decimal digits, most significant first. */
  function DigitsValue(s: string): nat
    requires AllDigits(s)
  {
    if s == [] then 0 else DigitsValue(s[..|s| - 1]) * 10 + DigitValue(s[|s| - 1])
  }

  /** Python's `int(s)` in base 10: surrounding whitespace, an optional sign
      and at least one digit. */
  function ParseInt(s: string): Option<int>
  {
    var t := Strip(s);
    if |t| > 0 && (t[0] == '-' || t[0] == '+') then
      var digits := t[1..];
      if |digits| > 0 && AllDigits(digits) then
        var magnitude: int := DigitsValue(digits);
        Some(if t[0] == '-' then -magnitude else magnitude)
      else None
    else if |t| > 0 && AllDigits(t) then Some(DigitsValue(t))
    else None
  }

  /** `str(n)` for a natural number. */
  function NatToString(n: nat): (s: string)
    ensures |s| > 0 && AllDigits(s)
    ensures DigitsValue(s) == n
  {
    if n < 10 then [DigitChar(n)]
    else
      var s := NatToString(n / 10) + [DigitChar(n % 10)];
      assert s[..|s| - 1] == NatToString(n / 10);
      s
  }

  /** `str(n)` for any integer. */
  function IntToString(n: int): string
  {
    if n < 0 then "-" + NatToString(-n) else NatToString(n)
  }

  /** Parsing what `str()` printed gives the number back. */
  lemma ParseIntToString(n: int)
    ensures ParseInt(IntToString(n)) == Some(n)
  {
    var s := IntToString(n);
    var digits := NatToString(if n < 0 then -n else n);
    assert !IsSpace(s[|s| - 1]) by { assert s[|s| - 1] == digits[|digits| - 1]; }
    StripKeepsTrimmed(s);
    if n < 0 {
      assert s[1..] == digits;
    }
  }

  /** `needle in hay` for two strings. */
  predicate HasInfix(hay: string, needle: string)
  {
    needle <= hay || (|hay| > 0 && HasInfix(hay[1..], needle))
  }

  lemma PrefixIsInfix(needle: string, rest: string)
    ensures HasInfix(needle + rest, needle)
  {
    assert needle <= needle + rest;
  }

  /** An infix of `y` stays an infix after anything is put in front of `y`. */
  lemma {:induction false} InfixExtendsLeft(x: string, y: string, needle: string)
    requires HasInfix(y, needle)
    ensures HasInfix(x + y, needle)
  {
    if |x| == 0 {
      assert x + y == y;
    } else {
      assert (x + y)[1..] == x[1..] + y;
      InfixExtendsLeft(x[1..], y, needle);
    }
  }

  /** Every part occurs in `sep.join(parts)`. */
  lemma {:induction false} JoinContainsParts(parts: seq<string>, sep: string)
    ensures forall i :: 0 <= i < |parts| ==> HasInfix(Join(parts, sep), parts[i])
  {
    if |parts| == 1 {
      PrefixIsInfix(parts[0], "");
      assert parts[0] + "" == parts[0];
    } else if |parts| > 1 {
      var rest := Join(parts[1..], sep);
      JoinContainsParts(parts[1..], sep);
      assert Join(parts, sep) == parts[0] + (sep + rest);
      PrefixIsInfix(parts[0], sep + rest);
      forall i | 1 <= i < |parts|
        ensures HasInfix(Join(parts, sep), parts[i])
      {
        assert parts[1..][i - 1] == parts[i];
        InfixExtendsLeft(parts[0] + sep, rest, parts[i]);
        assert (parts[0] + sep) + rest == Join(parts, sep);
      }
    }
  }
}

=== FILE: workflows.dfy ===
/** The `workflows` package: at import time every sibling `*.py` module
    except `__init__.py` is imported and registered under its file stem;
    requests then look workflows up by name. */
module Workflows {
  import opened Results
  import opened Text
  import opened StableDiffusion
  import Presets

  const DefaultWorkflowName: string := "sd_1_5"

  /** `_workflows`: the registered names in insertion order (the order
      `", ".join(_workflows.keys())` lists them in) and the loader each
      module exports. */
  datatype Registry = Registry(order: seq<string>, modules: map<string, Loader>)

  /** The names listed are exactly the registered ones, each once. */
  ghost predicate Valid(reg: Registry) {
    && (forall i, j :: 0 <= i < j < |reg.order| ==> reg.order[i] != reg.order[j])
    && (forall i :: 0 <= i < |reg.order| ==> reg.order[i] in reg.modules)
    && (forall k :: k in reg.modules ==> k in reg.order)
  }

  /** What `importlib.import_module` does for one stem: it yields a module
      with a `load` loader, raises `ImportError`, or raises anything else. */
  datatype ImportOutcome = Imported(loader: Loader) | ImportFailed | Raised

  /** The files `glob("*.py")` yields that `_load_workflows` imports. */
  predicate IsWorkflowFile(name: string) {
    |name| >= 3 && name[|name| - 3..] == ".py" && name != "__init__.py" && name != "templates"
  }

  /** `pathlib.Path(name).stem` for a `*.py` name: a bare ".py" is its own stem. */
  function Stem(name: string): (stem: string)
    requires IsWorkflowFile(name)
    ensures name == stem + ".py" || (name == ".py" && stem == name)
  {
    if |name| > 3 then name[..|name| - 3] else name
  }

  /** `_workflows[name] = loader`: a new key goes to the end of the
      iteration order, an existing key keeps its place. */
  function Register(reg: Registry, name: string, loader: Loader): (r: Registry)
    requires Valid(reg)
    ensures Valid(r)
    ensures r.modules == reg.modules[name := loader]
    ensures name in reg.modules ==> r.order == reg.order
    ensures name !in reg.modules ==> r.order == reg.order + [name]
  {
    if name in reg.modules then reg.(modules := reg.modules[name := loader])
    else Registry(reg.order + [name], reg.modules[name := loader])
  }

  /** A listed file that `_load_workflows` passes over: not a workflow
      file, or one whose import raised `ImportError`. */
  predicate Skipped(name: string, importer: string -> ImportOutcome) {
    !IsWorkflowFile(name) || importer(Stem(name)).ImportFailed?
  }

  /** Some workflow file raised an error other than `ImportError`. */
  predicate Fatal(names: seq<string>, importer: string -> ImportOutcome) {
    exists i :: 0 <= i < |names| && IsWorkflowFile(names[i]) && importer(Stem(names[i])).Raised?
  }

  /** The stems of the workflow files that imported. */
  ghost function LoadedStems(names: seq<string>, importer: string -> ImportOutcome): set<string> {
    set i | 0 <= i < |names| && IsWorkflowFile(names[i]) && importer(Stem(names[i])).Imported? :: Stem(names[i])
  }

  /** The stems of the workflow files that import, in listing order. */
  function ImportedStems(names: seq<string>, importer: string -> ImportOutcome): seq<string>
    decreases |names|
  {
    if names == [] then []
    else if IsWorkflowFile(names[0]) && importer(Stem(names[0])).Imported? then
      [Stem(names[0])] + ImportedStems(names[1..], importer)
    else ImportedStems(names[1..], importer)
  }

  /** `order` followed, one by one, by each of `stems` it does not yet
      contain: the key order of a dict after assigning those keys. */
  function AppendNew(order: seq<string>, stems: seq<string>): (r: seq<string>)
    ensures order <= r
    decreases |stems|
  {
    if stems == [] then order
    else AppendNew(if stems[0] in order then order else order + [stems[0]], stems[1..])
  }

  /** The loop of `_load_workflows` over the listed names, from `reg`: a
      successful loop lists the earlier names first and then each newly
      imported stem in listing order. */
  function LoadInto(reg: Registry, names: seq<string>, importer: string -> ImportOutcome): (r: Result<Registry, string>)
    requires Valid(reg)
    ensures r.Ok? ==> Valid(r.value)
    ensures r.Ok? ==> r.value.order == AppendNew(reg.order, ImportedStems(names, importer))
    decreases |names|
  {
    if names == [] then Ok(reg)
    else if !IsWorkflowFile(names[0]) then LoadInto(reg, names[1..], importer)
    else match importer(Stem(names[0]))
      case Imported(loader) =>
        var stem := Stem(names[0]);
        assert ImportedStems(names, importer) == [stem] + ImportedStems(names[1..], importer);
        assert ([stem] + ImportedStems(names[1..], importer))[1..] == ImportedStems(names[1..], importer);
        assert stem in reg.modules <==> stem in reg.order;
        LoadInto(Register(reg, stem, loader), names[1..], importer)
      case ImportFailed => LoadInto(reg, names[1..], importer)
      case Raised => Err(Stem(names[0]))
  }

  /** None of `stems` is in `order`, and no stem is listed twice. */
  predicate FreshStems(order: seq<string>, stems: seq<string>) {
    && (forall i :: 0 <= i < |stems| ==> stems[i] !in order)
    && (forall i, j :: 0 <= i < j < |stems| ==> stems[i] != stems[j])
  }

  /** The tail of fresh, distinct stems stays fresh once the head is
      appended. */
  lemma FreshTail(order: seq<string>, stems: seq<string>)
    requires stems != [] && FreshStems(order, stems)
    ensures stems[0] !in order
    ensures FreshStems(order + [stems[0]], stems[1..])
  {
    var rest := stems[1..];
    forall i | 0 <= i < |rest|
      ensures rest[i] !in order + [stems[0]]
    {
      assert rest[i] == stems[i + 1];
      assert stems[i + 1] != stems[0];
    }
    forall i, j | 0 <= i < j < |rest|
      ensures rest[i] != rest[j]
    {
      assert rest[i] == stems[i + 1] && rest[j] == stems[j + 1];
    }
  }

  /** When the imported stems are new and distinct, the loaded order is
      the earlier order followed by exactly those stems. */
  lemma {:induction false} AppendNewFresh(order: seq<string>, stems: seq<string>)
    requires FreshStems(order, stems)
    ensures AppendNew(order, stems) == order + stems
    decreases |stems|
  {
    if stems != [] {
      FreshTail(order, stems);
      var next := order + [stems[0]];
      assert AppendNew(order, stems) == AppendNew(next, stems[1..]);
      AppendNewFresh(next, stems[1..]);
      assert next + stems[1..] == order + stems;
    }
  }

  /** `_load_workflows()` over a directory listing; an error other than
      `ImportError` escapes, naming the module that raised it. */
  function LoadWorkflows(names: seq<string>, importer: string -> ImportOutcome): (r: Result<Registry, string>)
    ensures r.Ok? ==> Valid(r.value)
    ensures r.Ok? <==> !Fatal(names, importer)
    ensures r.Ok? ==> r.value.modules.Keys == LoadedStems(names, importer)
    ensures r.Ok? ==> forall k :: k in LoadedStems(names, importer) ==>
              importer(k).Imported? && r.value.modules[k] == importer(k).loader
    ensures r.Ok? ==> r.value.order == AppendNew([], ImportedStems(names, importer))
  {
    LoadIntoOutcome(Registry([], map[]), names, importer);
    LoadInto(Registry([], map[]), names, importer)
  }

  /** Loading fails exactly when a workflow file raises something other
      than `ImportError`, and otherwise registers exactly the stems that
      imported. */
  lemma FatalCons(names: seq<string>, importer: string -> ImportOutcome)
    requires names != []
    ensures Fatal(names, importer) <==>
      (IsWorkflowFile(names[0]) && importer(Stem(names[0])).Raised?) || Fatal(names[1..], importer)
  {
    var rest := names[1..];
    if Fatal(rest, importer) {
      var i :| 0 <= i < |rest| && IsWorkflowFile(rest[i]) && importer(Stem(rest[i])).Raised?;
      assert names[i + 1] == rest[i];
    }
    if Fatal(names, importer) {
      var i :| 0 <= i < |names| && IsWorkflowFile(names[i]) && importer(Stem(names[i])).Raised?;
      if i > 0 { assert rest[i - 1] == names[i]; }
    }
  }

  lemma LoadedStemsCons(names: seq<string>, importer: string -> ImportOutcome)
    requires names != []
    ensures LoadedStems(names, importer) ==
      (if IsWorkflowFile(names[0]) && importer(Stem(names[0])).Imported? then {Stem(names[0])} else {})
      + LoadedStems(names[1..], importer)
  {
    var rest := names[1..];
    var here := if IsWorkflowFile(names[0]) && importer(Stem(names[0])).Imported? then {Stem(names[0])} else {};
    forall k | k in LoadedStems(names, importer) ensures k in here + LoadedStems(rest, importer) {
      var i :| 0 <= i < |names| && IsWorkflowFile(names[i]) && importer(Stem(names[i])).Imported? && k == Stem(names[i]);
      if i > 0 { assert rest[i - 1] == names[i]; }
    }
    forall k | k in LoadedStems(rest, importer) ensures k in LoadedStems(names, importer) {
      var i :| 0 <= i < |rest| && IsWorkflowFile(rest[i]) && importer(Stem(rest[i])).Imported? && k == Stem(rest[i]);
      assert names[i + 1] == rest[i];
    }
  }

  /** Membership in the listed stems is membership in the stem set. */
  lemma {:induction false} ImportedStemsListed(names: seq<string>, importer: string -> ImportOutcome)
    ensures forall k :: k in ImportedStems(names, importer) <==> k in LoadedStems(names, importer)
    decreases |names|
  {
    if names != [] {
      LoadedStemsCons(names, importer);
      ImportedStemsListed(names[1..], importer);
    }
  }

  /** Each stem a successful load imported maps to the module its own
      import produced, and every earlier name not re-imported keeps its
      module. */
  lemma {:induction false} LoadIntoLoaders(reg: Registry, names: seq<string>, importer: string -> ImportOutcome)
    requires Valid(reg)
    ensures LoadInto(reg, names, importer).Ok? ==>
      forall k :: k in ImportedStems(names, importer) ==>
        importer(k).Imported? && k in LoadInto(reg, names, importer).value.modules
        && LoadInto(reg, names, importer).value.modules[k] == importer(k).loader
    ensures LoadInto(reg, names, importer).Ok? ==>
      forall k :: k in reg.modules && k !in ImportedStems(names, importer) ==>
        k in LoadInto(reg, names, importer).value.modules
        && LoadInto(reg, names, importer).value.modules[k] == reg.modules[k]
    decreases |names|
  {
    if names != [] {
      var rest := names[1..];
      if !IsWorkflowFile(names[0]) || importer(Stem(names[0])).ImportFailed? {
        LoadIntoLoaders(reg, rest, importer);
      } else if importer(Stem(names[0])).Imported? {
        var stem := Stem(names[0]);
        var next := Register(reg, stem, importer(stem).loader);
        LoadIntoLoaders(next, rest, importer);
        assert ImportedStems(names, importer) == [stem] + ImportedStems(rest, importer);
        assert LoadInto(reg, names, importer) == LoadInto(next, rest, importer);
        assert stem in next.modules && next.modules[stem] == importer(stem).loader;
      }
    }
  }

  /** Loading fails exactly when a workflow file raises something other
      than `ImportError`, and otherwise registers exactly the stems that
      imported. */
  lemma {:induction false} LoadIntoRegisters(reg: Registry, names: seq<string>, importer: string -> ImportOutcome)
    requires Valid(reg)
    ensures LoadInto(reg, names, importer).Ok? <==> !Fatal(names, importer)
    ensures LoadInto(reg, names, importer).Ok? ==>
      LoadInto(reg, names, importer).value.modules.Keys == reg.modules.Keys + LoadedStems(names, importer)
    decreases |names|
  {
    if names != [] {
      FatalCons(names, importer);
      LoadedStemsCons(names, importer);
      if !IsWorkflowFile(names[0]) || importer(Stem(names[0])).ImportFailed? {
        LoadIntoRegisters(reg, names[1..], importer);
      } else if importer(Stem(names[0])).Imported? {
        LoadIntoRegisters(Register(reg, Stem(names[0]), importer(Stem(names[0])).loader), names[1..], importer);
      }
    }
  }

  /** Loading fails exactly when a workflow file raises something other
      than `ImportError`, and otherwise registers exactly the stems that
      imported, each mapped to the module its own import produced, while
      every earlier name not re-imported keeps its module. */
  lemma LoadIntoOutcome(reg: Registry, names: seq<string>, importer: string -> ImportOutcome)
    requires Valid(reg)
    ensures LoadInto(reg, names, importer).Ok? <==> !Fatal(names, importer)
    ensures LoadInto(reg, names, importer).Ok? ==>
      LoadInto(reg, names, importer).value.modules.Keys == reg.modules.Keys + LoadedStems(names, importer)
    ensures LoadInto(reg, names, importer).Ok? ==>
      forall k :: k in LoadedStems(names, importer) ==>
        importer(k).Imported? && LoadInto(reg, names, importer).value.modules[k] == importer(k).loader
    ensures LoadInto(reg, names, importer).Ok? ==>
      forall k :: k in reg.modules && k !in LoadedStems(names, importer) ==>
        LoadInto(reg, names, importer).value.modules[k] == reg.modules[k]
  {
    LoadIntoRegisters(reg, names, importer);
    LoadIntoLoaders(reg, names, importer);
    ImportedStemsListed(names, importer);
  }

  /** A file that is not a workflow, or whose import raises `ImportError`,
      leaves the registry exactly as if it had not been listed. */
  lemma {:induction false} SkippedFileInvisible(reg: Registry, pre: seq<string>, name: string, post: seq<string>, importer: string -> ImportOutcome)
    requires Valid(reg)
    requires Skipped(name, importer)
    ensures LoadInto(reg, pre + [name] + post, importer) == LoadInto(reg, pre + post, importer)
    decreases |pre|
  {
    if pre == [] {
      assert pre + [name] + post == [name] + post;
      assert ([name] + post)[1..] == post;
      assert pre + post == post;
    } else {
      assert (pre + [name] + post)[0] == pre[0] && (pre + post)[0] == pre[0];
      assert (pre + [name] + post)[1..] == pre[1..] + [name] + post;
      assert (pre + post)[1..] == pre[1..] + post;
      if Skipped(pre[0], importer) {
        SkippedFileInvisible(reg, pre[1..], name, post, importer);
      } else if importer(Stem(pre[0])).Imported? {
        SkippedFileInvisible(Register(reg, Stem(pre[0]), importer(Stem(pre[0])).loader), pre[1..], name, post, importer);
      }
    }
  }

  /** `_available_workflows`. */
  function Available(reg: Registry): string {
    Join(reg.order, ", ")
  }

  /** `get_workflow`: the registered loader itself, or the `ValueError`
      message naming the request and the available workflows. */
  function GetWorkflow(reg: Registry, name: string): (r: Result<Loader, string>)
    ensures r.Ok? <==> name in reg.modules
    ensures r.Ok? ==> r.value == reg.modules[name]
  {
    if name !in reg.modules then
      Err("ERROR: Workflow '" + name + "' not found. Available workflows: " + Available(reg))
    else Ok(reg.modules[name])
  }

  /** The message for an unknown name mentions that name and every
      registered workflow. */
  lemma UnknownWorkflowMessage(reg: Registry, name: string)
    requires Valid(reg)
    requires name !in reg.modules
    ensures GetWorkflow(reg, name).Err?
    ensures HasInfix(GetWorkflow(reg, name).error, name)
    ensures forall k :: k in reg.modules ==> HasInfix(GetWorkflow(reg, name).error, k)
  {
    var head := "ERROR: Workflow '";
    var msg := GetWorkflow(reg, name).error;
    assert msg == head + (name + ("' not found. Available workflows: " + Available(reg)));
    PrefixIsInfix(name, "' not found. Available workflows: " + Available(reg));
    InfixExtendsLeft(head, name + ("' not found. Available workflows: " + Available(reg)), name);
    JoinContainsParts(reg.order, ", ");
    forall k | k in reg.modules ensures HasInfix(msg, k) {
      var i :| 0 <= i < |reg.order| && reg.order[i] == k;
      assert msg == (head + name + "' not found. Available workflows: ") + Available(reg);
      InfixExtendsLeft(head + name + "' not found. Available workflows: ", Available(reg), k);
    }
  }

  /** `get_default_workflow`. */
  function GetDefaultWorkflow(reg: Registry): (r: Result<Loader, string>)
    ensures r.Ok? <==> DefaultWorkflowName in reg.modules
    ensures r.Ok? ==> r.value == reg.modules["sd_1_5"]
  {
    GetWorkflow(reg, DefaultWorkflowName)
  }

  /** The modules shipped next to `__init__.py`, in the order this model
      lists them (the source takes the filesystem's order). */
  const ShippedFiles: seq<string> :=
    ["__init__.py", "sd_1_5.py", "sdxl_lightning_4step.py", "sdxl_lightning_6step_juggernaut_xi.py"]

  /** Importing a shipped module yields its loader; any other name has no
      module, which Python reports as `ModuleNotFoundError`, an `ImportError`. */
  function ShippedImport(stem: string): ImportOutcome {
    if stem == "sd_1_5" then Imported(Presets.Sd15)
    else if stem == "sdxl_lightning_4step" then Imported(Presets.SdxlLightning4Step)
    else if stem == "sdxl_lightning_6step_juggernaut_xi" then Imported(Presets.SdxlLightning6StepJuggernautXi)
    else ImportFailed
  }

  lemma ShippedStems()
    ensures Stem(ShippedFiles[1]) == "sd_1_5"
    ensures Stem(ShippedFiles[2]) == "sdxl_lightning_4step"
    ensures Stem(ShippedFiles[3]) == "sdxl_lightning_6step_juggernaut_xi"
  {
    assert ShippedFiles[1] == "sd_1_5" + ".py";
    assert ShippedFiles[2] == "sdxl_lightning_4step" + ".py";
    assert ShippedFiles[3] == "sdxl_lightning_6step_juggernaut_xi" + ".py";
  }

  /** The registry the shipped package builds. */
  const ShippedRegistry: Registry := Registry(
    ["sd_1_5", "sdxl_lightning_4step", "sdxl_lightning_6step_juggernaut_xi"],
    map[
      "sd_1_5" := Presets.Sd15,
      "sdxl_lightning_4step" := Presets.SdxlLightning4Step,
      "sdxl_lightning_6step_juggernaut_xi" := Presets.SdxlLightning6StepJuggernautXi])

  /** Loading the shipped listing registers its three modules in listing
      order and passes over `__init__.py`. */
  lemma LoadsShippedRegistry()
    ensures LoadWorkflows(ShippedFiles, ShippedImport) == Ok(ShippedRegistry)
  {
    var r0 := Registry([], map[]);
    var r1 := Register(r0, "sd_1_5", Presets.Sd15);
    var r2 := Register(r1, "sdxl_lightning_4step", Presets.SdxlLightning4Step);
    var r3 := Register(r2, "sdxl_lightning_6step_juggernaut_xi", Presets.SdxlLightning6StepJuggernautXi);
    ShippedStems();
    ShippedStep(r0, 0);
    ShippedStep(r0, 1);
    ShippedStep(r1, 2);
    ShippedStep(r2, 3);
    assert ShippedFiles[0..] == ShippedFiles;
    assert ShippedFiles[4..] == [];
    ShippedChain();
  }

  /** The first two registrations of the shipped chain, as a registry value. */
  lemma ShippedChainHead()
    ensures Register(Register(Registry([], map[]), "sd_1_5", Presets.Sd15),
              "sdxl_lightning_4step", Presets.SdxlLightning4Step)
            == Registry(["sd_1_5", "sdxl_lightning_4step"],
                 map["sd_1_5" := Presets.Sd15, "sdxl_lightning_4step" := Presets.SdxlLightning4Step])
  {
    var r1 := Register(Registry([], map[]), "sd_1_5", Presets.Sd15);
    assert r1 == Registry(["sd_1_5"], map["sd_1_5" := Presets.Sd15]);
    assert "sdxl_lightning_4step" !in r1.modules;
  }

  lemma ShippedChain()
    ensures Register(Register(Register(Registry([], map[]), "sd_1_5", Presets.Sd15),
              "sdxl_lightning_4step", Presets.SdxlLightning4Step),
              "sdxl_lightning_6step_juggernaut_xi", Presets.SdxlLightning6StepJuggernautXi)
            == ShippedRegistry
  {
    ShippedChainHead();
    var r2 := Registry(["sd_1_5", "sdxl_lightning_4step"],
                map["sd_1_5" := Presets.Sd15, "sdxl_lightning_4step" := Presets.SdxlLightning4Step]);
    assert "sdxl_lightning_6step_juggernaut_xi" !in r2.modules;
    var r3 := Register(r2, "sdxl_lightning_6step_juggernaut_xi", Presets.SdxlLightning6StepJuggernautXi);
    assert r3.order == ShippedRegistry.order;
    assert r3.modules == ShippedRegistry.modules;
  }

  /** With the shipped registry the default workflow is sd_1_5, and the
      available list names all three modules. */
  lemma ShippedDefault()
    ensures GetDefaultWorkflow(ShippedRegistry) == Ok(Presets.Sd15)
    ensures Available(ShippedRegistry)
              == "sd_1_5" + ", " + "sdxl_lightning_4step" + ", " + "sdxl_lightning_6step_juggernaut_xi"
  {
    var o := ShippedRegistry.order;
    assert o[1..] == ["sdxl_lightning_4step", "sdxl_lightning_6step_juggernaut_xi"];
    assert o[1..][1..] == ["sdxl_lightning_6step_juggernaut_xi"];
  }

  /** One iteration of the loop over the shipped listing: `__init__.py`
      is passed over and each other file registers its stem. */
  lemma ShippedStep(reg: Registry, i: nat)
    requires Valid(reg)
    requires i < 4
    ensures i == 0 ==> LoadInto(reg, ShippedFiles[i..], ShippedImport) == LoadInto(reg, ShippedFiles[i + 1..], ShippedImport)
    ensures i > 0 ==>
      && IsWorkflowFile(ShippedFiles[i])
      && ShippedImport(Stem(ShippedFiles[i])).Imported?
      && LoadInto(reg, ShippedFiles[i..], ShippedImport)
           == LoadInto(Register(reg, Stem(ShippedFiles[i]), ShippedImport(Stem(ShippedFiles[i])).loader),
                       ShippedFiles[i + 1..], ShippedImport)
  {
    ShippedStems();
    assert ShippedFiles[i..][0] == ShippedFiles[i];
    assert ShippedFiles[i..][1..] == ShippedFiles[i + 1..];
  }
}
